=== FILE: README.md ===
# reactive-system in Dafny

A model of the core of a small proxy-based reactivity runtime. Reads of reactive objects are tracked against the running effect. Writes trigger the effects that read what changed. `computed` caches a getter's value lazily, and `watch` calls a callback with the new and old values.

The model is pure and functional. One `Types.State` holds four things:

- the dependency store, target → key → set of effects, which stands for the `WeakMap` bucket;
- each effect's back-reference list, `effectFn.deps`;
- the active effect and the effect stack;
- the `shouldTrack` switch.

It also keeps a log of effect calls, `runs`, so that the model can say how often a getter was evaluated.

A dependency set is identified by its (target, key) pair. The source never removes a set from a target's map, so each pair names exactly one set.

An effect body is a sequence of steps. Each step is either a tracked read or a nested effect run.

JavaScript's host semantics appear only as far as the handlers observe them, in `Reactive`:

- own properties;
- array length and truncation;
- set membership;
- `Number(key)` on an array;
- the `TypeError` for a symbol and the `RangeError` for a bad length.

Modules follow the source files:

| module | file |
|---|---|
| `Cleanup` | `src/core/utils.ts` |
| `Effect`, `EffectProperties` | `src/core/effect.ts` |
| `Reactive`, `ReactiveStore`, `SizeRead`, `CollectionCall` | `src/core/reactive.ts` |
| `Computed` | `src/core/computed.ts` |
| `Watch`, `WatchJob` | `src/core/watch.ts` |

`Wrappers` holds `Option` and `Result`.

Some behaviour of the code is easy to misread; the model follows the code:

- **The `shouldTrack` switch.** An array mutator switches tracking off and, after a normal return, sets it to `true`, whatever it was before. After a throw the switch stays off. `Reactive.CallArrayMutator` models exactly that.
- **Throwing bodies.** `effectFn` has no `try`/`finally`. A body that throws leaves the effect pushed and active (`Effect.RunEffectThrowing`). The `value` accessor of `computed` clears `dirty` before calling the getter, so a getter that throws leaves the old value cached as if it were fresh (`Computed.ReadValueThrowing`).
- **The `size` read.** The `get` trap applies its `size` case to every target. `Reactive.GetAsWritten` is the trap as written. `Reactive.Get` confines the case to collections, and `ReactiveStore.ProxyRead` and every lemma built on it use `Get` (see Findings). The reads of the `watch` traversal follow the trap as written (`Reactive.TrackedAsWritten`): a `raw` read tracks nothing, and a `size` read tracks the iteration key, readonly or not.
- **Collection methods.** The `get` trap never dispatches to `mutableInstrumentations`, so `add` and `delete` on a reactive collection throw (`CollectionCall.CallAsWritten`, see Findings). `Reactive.CollectionAdd` and `Reactive.CollectionDelete` model the instrumentations themselves. `CollectionCall.Call` is the call with the dispatch in place, and the collection lemmas of `ReactiveStore` are about that call.
- **Flush modes.** `'pre'` and `'sync'` flush behave alike, as does no flush option.

## Model

| member | source | states |
|---|---|---|
| Types.IndexString | src/core/reactive.ts:125 | the printed form of an index is a non-empty string of digits with no leading zero |
| Types.ParseIndexString | src/core/reactive.ts:125 | parsing the printed form of an index gives the index back |
| Types.IndexStringOfParse | src/core/reactive.ts:125 | a canonical index string is the printed form of the index it parses to, so it is the only string naming that index |
| Cleanup.RemoveOne | src/core/utils.ts:4 | removing the effect from one dependency set changes that set only, and creates or drops no target or key |
| Cleanup.RemoveAll | src/core/utils.ts:3-5 | after walking the back-reference list, the effect is out of every listed set, and every unlisted set is as before |
| Cleanup.CleanupDeps | src/core/utils.ts:1-7 | the back-reference list is emptied; the effect leaves every set it listed; other effects' memberships and lists are unchanged; a consistent store stays consistent and no set holds the effect afterwards |
| Cleanup.CleanupIdempotent | src/core/utils.ts:1-7 | cleaning up twice is the same as cleaning up once |
| Effect.Track | src/core/effect.ts:18-33 | without an active effect, or with tracking off, nothing changes; otherwise the set for (target, key) is created on demand and holds the active effect, the pair is appended to its back-reference list, and everything else is unchanged; consistency is preserved |
| Effect.TrackKeepsLinked | src/core/effect.ts:30-32 | adding the effect to the set and the set to the effect's list together keep every membership backed by a back-reference |
| Effect.IndexAtOrBeyond | src/core/effect.ts:58 | a non-index key or a non-numeric new length is never at or beyond; every index is at or beyond a new length of zero or less; an index below the new length is not |
| Effect.Select | src/core/effect.ts:42-89 | an unknown target selects nobody; the running effect is never selected; apart from it, the selection is exactly the union of the key's subscribers, on an array `length` write the subscribers of every index at or beyond the new length, on an array `ADD` the `length` subscribers, and on `ADD`/`DELETE` the iteration subscribers |
| Effect.Trigger | src/core/effect.ts:90-97 | every selected effect is dispatched exactly once, to its scheduler when its options have one and run directly otherwise |
| Effect.ExecStep | src/core/effect.ts:105-108 | one step of a body, a `track` or a nested call, leaves the stack and switch as they were, keeps the active effect when it was the stack top, only appends to the call log, and preserves consistency |
| Effect.ExecBody | src/core/effect.ts:105-108 | running a body leaves the stack and switch as they were, keeps the active effect when it was the stack top, only appends to the call log, and preserves consistency |
| Effect.RunEffect | src/core/effect.ts:102-114 | one call of `effectFn` whose body returns normally is logged first, restores the stack, leaves the previous top active, and preserves consistency |
| Effect.RunEffectThrowing | src/core/effect.ts:102-112 | a call whose body throws after some reads is logged first and leaves the effect pushed on the stack and active, with the switch unchanged and consistency kept |
| EffectProperties.ExecFlatBody | src/core/effect.ts:105-108 | a body of plain reads appends exactly those reads, in order, to the active effect's list, adds the effect to exactly those sets, touches no other effect's list and calls no effect |
| EffectProperties.RunRecordsExactly | src/core/effect.ts:102-114 | after a run of a flat body, the effect subscribes to exactly the pairs the body read, its list is exactly those reads, other effects keep their lists, and the run logs this one call |
| EffectProperties.RunRecordsExactlyWhen | src/core/effect.ts:102-114 | the same as RunRecordsExactly, stated as an implication usable inside function bodies |
| EffectProperties.TrackedReadIsTriggered | src/core/effect.ts:18-54 | a pair read while an effect runs makes any later write of that pair, made while another effect runs, select the reader |
| EffectProperties.RunThenSetSelectsIff | src/core/effect.ts:102-114 | after a run of a flat body from outside the effect, a `SET` of a pair selects the effect exactly when the body read that pair |
| EffectProperties.ThrowLeavesEffectActive | src/core/effect.ts:105-112 | after a body throws, a read made outside any effect subscribes the thrown effect, and a later effect run hands control back to it |
| EffectProperties.StaleBranchNotTriggered | src/core/effect.ts:102-114 | when a re-run no longer reads a pair the previous run read, a later `SET` of that pair no longer selects the effect |
| EffectProperties.NestedRunRestoresOuter | src/core/effect.ts:105-112 | an inner effect run at the start of an outer body gets the inner reads; the outer effect gets exactly the remaining reads; the stack and the active effect are as before |
| EffectProperties.CreateEffect | src/core/effect.ts:101-121 | the options are registered; a lazy effect is not called and subscribes to nothing; a non-lazy one is called once at creation and subscribes to exactly what a flat body read |
| EffectProperties.FreshEffectDetached | src/core/effect.ts:115-116 | a new effect with an empty list is in no set, and consistency is kept |
| EffectProperties.RunFlatRunsOnce | src/core/effect.ts:102-114 | a run of a flat body makes exactly one effect call, its own |
| EffectProperties.ExecFlatRuns | src/core/effect.ts:105-108 | a flat body calls no effect |
| EffectProperties.RunWhileUntrackedRecordsNothing | src/core/effect.ts:18-19 | a run made with tracking off leaves the effect in no set and with an empty list |
| EffectProperties.ExecUntracked | src/core/effect.ts:18-19 | with tracking off, reads change neither the store nor any list |
| Reactive.Truncate | src/core/reactive.ts:131 | shrinking an array's length keeps exactly the properties that are not indices at or beyond the new length, with their values |
| Reactive.ReflectGet | src/core/reactive.ts:63-79 | an array's `length` reads as its length, an own property as its value, a collection's `size` (when not shadowed) as its member count, and anything else as `undefined` |
| Reactive.HasOwn | src/core/reactive.ts:108 | an array always owns `length`; a key that is not own reads as `undefined`, except a collection's `size` getter |
| Reactive.ReflectSet | src/core/reactive.ts:131 | a write succeeds unless it sets an array's `length` to something other than a non-negative number; afterwards the key reads as the new value; nothing else changes: the target keeps its kind, its other properties and its members; an index write at or beyond an array's length sets the length to the index plus one, and any other non-`length` write keeps it; a `length` write truncates to the new length; well-formedness is kept |
| Reactive.ReflectDelete | src/core/reactive.ts:109 | a delete succeeds except for an array's `length`; on success the key is no longer an own property, and the target is otherwise unchanged (kind, other properties, length and members); a refused delete changes nothing |
| Reactive.TrackedAsWritten | src/core/reactive.ts:58-80 | as written, a `get` tracks nothing for `raw` or for a replaced array method, the iteration key for `size` whatever the flavour, and for any other key the key itself exactly when the proxy is not readonly and the key is no symbol |
| Reactive.GetAsWritten | src/core/reactive.ts:58-89 | as written: a `size` read on any target tracks the iteration key and returns the raw value; every read tracks exactly what `TrackedAsWritten` says |
| Reactive.Get | src/core/reactive.ts:58-89 | `raw` returns the target untracked; array methods return their instrumentation untracked; collection `size` tracks iteration; any other key is tracked unless readonly or symbolic, and an object result is wrapped reactive or readonly unless shallow, while a function or a primitive is returned as it is; only the key or the iteration key is ever tracked |
| Reactive.Has | src/core/reactive.ts:91-94 | `in` tracks exactly the key it is asked about, and answers true exactly for an own property |
| Reactive.OwnKeys | src/core/reactive.ts:96-101 | enumeration yields exactly the own keys and tracks `length` on arrays and the iteration key otherwise |
| Reactive.DeleteProperty | src/core/reactive.ts:103-115 | readonly reports success and changes nothing; otherwise the result is the delete's success; a `DELETE` notification is sent exactly when an own key was really removed |
| Reactive.WriteKind | src/core/reactive.ts:124-130 | on an array a write is `SET` exactly for an index below the length, and a symbol key throws; elsewhere `SET` exactly when the key is an own property |
| Reactive.Changed | src/core/reactive.ts:135-139 | the trigger guard holds exactly when old and new differ, with `NaN` equal to itself |
| Reactive.SetProperty | src/core/reactive.ts:116-143 | readonly reports success and changes nothing; otherwise the write fails exactly when classification or the write throws; on success it notifies, with the classified change, exactly when the receiver is the target's own proxy and the value changed |
| Reactive.ElementKey | src/core/reactive.ts:35-44 | the key an element's `ADD`/`DELETE` goes to is the property key a string element names, `Index(n)` for a canonical index string, and a key of its own for any other element |
| Reactive.ElementKeyOfIndexString | src/core/reactive.ts:35-44 | the string of index `n` notifies on `Index(n)`, the key a read of `n` tracks |
| Reactive.CollectionAdd | src/core/reactive.ts:29-38 | on a collection the element becomes a member, and `ADD` is sent exactly when it was absent; a non-collection throws |
| Reactive.CollectionDelete | src/core/reactive.ts:39-47 | on a collection the element stops being a member, the result says whether it was one, and `DELETE` is sent exactly then; a non-collection throws |
| Reactive.CallArrayMutator | src/core/reactive.ts:18-26 | tracking is off during the mutator and on after a normal return; after a throw it stays off; the stack, active effect and consistency are kept |
| Reactive.CreateReactive | src/core/reactive.ts:50-54 | every call makes a proxy for the object with the given flavour under a fresh id, keeps every earlier proxy and the cache, and keeps the table well formed, with the fresh id in no cache entry |
| Reactive.MakeReactive | src/core/reactive.ts:148-157 | a cached object gets its existing proxy back unchanged; otherwise a new deep mutable proxy is made and cached; earlier proxies are untouched |
| Reactive.MakeVariant | src/core/reactive.ts:159-169 | shallow and readonly variants always make a new proxy and never touch the cache |
| ReactiveStore.ProxyRead | src/core/reactive.ts:58-89 | a proxy read, with the `size` case confined to collections, answers what `Get` answers; an untracked read changes nothing; a tracked one makes the active effect a subscriber of the pair it names, changes no other set, removes no subscriber, changes no other effect's list, and leaves the stack, switch and call log alone |
| ReactiveStore.Notified | src/core/reactive.ts:140 | a notification triggers exactly the selection for its key and change, and no notification triggers nothing |
| ReactiveStore.ProxyWrite | src/core/reactive.ts:116-143 | a readonly write triggers nothing; any write triggers only subscribers of the target, never the running effect, and nothing at all through a foreign receiver |
| ReactiveStore.ProxyDelete | src/core/reactive.ts:103-115 | deleting a key that is not an own property triggers nothing; any delete triggers only subscribers of the target |
| ReactiveStore.ReadThenChangeSelectsReader | src/core/reactive.ts:135-141 | a tracked read followed by a write through the same proxy selects the reader exactly when the value changed |
| ReactiveStore.HasReaderSeesAddAndDelete | src/core/reactive.ts:91-94 | an effect that asked `key in obj` is selected when a write of a new value makes the key an own property, and when a delete removes it |
| ReactiveStore.EnumerationSeesAddAndDelete | src/core/reactive.ts:96-101 | an effect that enumerated a plain object is selected by adding a key with a value other than undefined and by deleting an existing key |
| ReactiveStore.AddingUndefinedIsSilent | src/core/reactive.ts:135-141 | adding a new key whose value is undefined creates the key but triggers nobody |
| ReactiveStore.AppendSelectsLengthReaders | src/core/reactive.ts:124-127 | a write at or beyond an array's length is `ADD` and selects the effects that read `length` |
| ReactiveStore.TruncationSelectsDroppedIndices | src/core/effect.ts:55-66 | setting a shorter `length` drops exactly the indices at or beyond it and selects every subscriber of a dropped index |
| ReactiveStore.ClassificationMatchesWrite | src/core/reactive.ts:122-131 | `ADD` means the key was not an own property, or on arrays that the index write grew the length; afterwards the key is an own property |
| ReactiveStore.ReadonlyDenies | src/core/reactive.ts:104-107 | readonly writes and deletes report success, change nothing and trigger nothing |
| ReactiveStore.ReadonlyReadsDoNotTrack | src/core/reactive.ts:74-78 | with the `size` case confined to collections, a readonly proxy tracks no property read of a non-collection (as written, a `size` read tracks the iteration key even when readonly) |
| ReactiveStore.AddThenDeleteRestores | src/core/reactive.ts:28-47 | the instrumentations, once reached: adding an absent element and deleting it again restores the collection, with one `ADD` and one `DELETE` |
| ReactiveStore.SizeReadersSeeMembershipChange | src/core/reactive.ts:28-47 | with the instrumentations reached: `size` readers of a collection are selected by adding a new element and by deleting a present one |
| ReactiveStore.ArrayMutatorRecordsNothing | src/core/reactive.ts:16-26 | the reads inside an array mutator record no dependency, and tracking is on afterwards |
| ReactiveStore.ThrowingMutatorDisablesTracking | src/core/reactive.ts:20-24 | after a mutator throws, later reads record nothing |
| ReactiveStore.ReactiveIsCached | src/core/reactive.ts:150-156 | calling `reactive` twice on the same object returns the same proxy and creates nothing new |
| ReactiveStore.VariantsAreFresh | src/core/reactive.ts:159-169 | two calls of a variant give two distinct proxies of the same object and flavour |
| SizeRead.SizeOnPlainObjectMissesUpdate | src/core/reactive.ts:63-66 | as written, a plain object's `size` read is not selected by a write that changes `size` |
| SizeRead.SizeOnPlainObjectSeesUpdate | src/core/reactive.ts:63-66 | with the `size` case confined to collections, the same write selects the reader |
| CollectionCall.CallAsWritten | src/core/reactive.ts:58-89 | as written, calling `add` or `delete` on a reactive collection throws a `TypeError`; the method read tracks the method's name unless readonly and changes no other set |
| CollectionCall.Call | src/core/reactive.ts:28-48 | with the dispatch in place, the call succeeds exactly on a collection, adds or removes exactly that element, triggers nothing on failure, and triggers only subscribers of the target |
| CollectionCall.AddOnReactiveSetThrows | src/core/reactive.ts:58-89 | as written, `add(1)` on a reactive empty Set throws, subscribes the caller to the key `add`, and subscribes nobody to the iteration key |
| CollectionCall.AddOnReactiveSetReachesSizeReaders | src/core/reactive.ts:28-38 | with the dispatch in place, `add(1)` on a reactive empty Set adds the element and selects an effect that read `size` |
| Computed.NewComputed | src/core/computed.ts:4-19 | creating a computed registers a lazy effect with the computed's scheduler, evaluates nothing, subscribes to nothing and starts dirty |
| Computed.ReadValue | src/core/computed.ts:20-31 | reading `value` evaluates the getter once when dirty and returns its result, and otherwise returns the cache with no evaluation; it is clean afterwards and always tracks `value` for the reader |
| Computed.ReadValueThrowing | src/core/computed.ts:20-26 | a read of a dirty computed whose getter throws yields no value, leaves the computed clean with its old cache, and leaves its effect pushed and active; a clean computed never calls the getter and answers its cache |
| Computed.ThrowLeavesStaleValue | src/core/computed.ts:22-29 | after the getter throws once, the next read returns the value cached before the throw and evaluates nothing |
| Computed.Schedule | src/core/computed.ts:11-18 | a dirty computed ignores the notification; a clean one becomes dirty and triggers a `SET` on its `value` |
| Computed.ReadTwiceEvaluatesOnce | src/core/computed.ts:20-30 | two reads in a row return the same value and evaluate the getter at most once |
| Computed.FirstReadEvaluates | src/core/computed.ts:8-30 | the first read after creation evaluates once and returns the getter's result |
| Computed.ScheduleThenReadReevaluates | src/core/computed.ts:11-26 | after a notification, the next read evaluates again, once, and returns the new result |
| Computed.DependencyChangeReachesReaders | src/core/computed.ts:9-18 | a change to something the getter read goes to the computed's scheduler, which marks it dirty and selects every effect that read `value` |
| Watch.TraverseValue | src/core/watch.ts:19-28 | a primitive or an already seen object is left alone; otherwise traversal only grows the seen set, within the heap, and only appends reads; the object itself ends up seen; every object newly seen, raw or proxy, had its children seen; a proxy among them had its target's enumeration tracked, readonly or not, and each key read through it tracked what the `get` trap as written tracks for that key (nothing for `raw`, the iteration key for `size`, otherwise the key unless readonly or a symbol); no `raw` or `size` pair is ever tracked; and every pair the walk appends was tracked by visiting an object it first saw, as that object's enumeration or one of its key reads, so a raw object contributes nothing |
| Watch.TraverseProps | src/core/watch.ts:25-27 | every enumerated property value of the object ends up seen; through a proxy each key read tracks what the `get` trap as written tracks for it; the same growth, closure and recording guarantees hold, and every pair appended is one of those key reads or was tracked by visiting an object first seen in the walk |
| WatchJob.Traverse | src/core/watch.ts:19-28 | from a fresh seen set, the seen objects lie in the heap and are closed under children, every seen proxy had its target's enumeration tracked and each key read through it tracked as the `get` trap as written tracks it, no `raw` or `size` pair is tracked, and every tracked pair is the enumeration or a key read of some seen object |
| WatchJob.TraverseFollowsTrapAsWritten | src/core/watch.ts:25-27 | walking `reactive({raw: 1, size: 1, a: 1})` tracks the enumeration and `a`, but neither `raw` nor `size` |
| WatchJob.TraverseReachesAll | src/core/watch.ts:19-28 | every object reachable from the root through property values, raw or proxy, is seen, even through cycles, and each reachable proxy had its target's enumeration tracked |
| WatchJob.SpreadReads | src/core/watch.ts:34 | `{...source}` tracks exactly the root's enumeration and what the read of each of its keys tracks |
| WatchJob.GetterBody | src/core/watch.ts:29-36 | a function source is its own getter; an object source's getter only reads, and reads exactly the pairs the traversal tracks together with those of the `{...source}` spread |
| WatchJob.Job | src/core/watch.ts:44-53 | one job logs the getter run, then the registered cleanup if any, then the callback with (new, old); `oldValue` becomes the new value; a flat getter leaves the effect subscribed to exactly what it read |
| WatchJob.OnTrigger | src/core/watch.ts:56-64 | `'post'` only queues the job; every other flush runs the job at once |
| WatchJob.RunQueued | src/core/watch.ts:58-60 | the tick takes one queued job and runs it |
| WatchJob.Setup | src/core/watch.ts:54-72 | with `immediate` the callback runs once with an undefined old value; otherwise the getter runs once to fill `oldValue` and the callback does not run; either way the effect subscribes to exactly what a flat getter read |
| WatchJob.Stop | src/core/watch.ts:73-75 | stopping empties the effect's list and leaves it in no set |
| WatchJob.JobsChain | src/core/watch.ts:44-53 | the second callback's old value is the first callback's new value, and a cleanup registered in the first callback runs before the second |
| WatchJob.CleanupIsCalledAgain | src/core/watch.ts:39-49 | a registered cleanup is never cleared, so it runs before every later callback until replaced |
| WatchJob.PreAndSyncAgree | src/core/watch.ts:56-64 | `'pre'`, `'sync'` and no flush option give the same result |
| WatchJob.PostDefersTheJob | src/core/watch.ts:58-60 | with `'post'` nothing happens at trigger time, and the tick then does what an inline job would have done |
| WatchJob.StopEndsNotifications | src/core/watch.ts:73-75 | after `stop`, no trigger on any target or key selects the watch's effect |
| WatchJob.QueuedJobOutlivesStop | src/core/watch.ts:58-60 | a `'post'` job still queued at `stop` runs later and subscribes the effect again |

## Left out

- Proxies, `Reflect` and prototype chains are not modelled. A target is a record of own properties: a plain object, an array with a length, or a collection with members. `has` answers for own properties only. Accessors, frozen objects and non-enumerable properties are not modelled.
- The `includes`/`indexOf`/`lastIndexOf` instrumentations are out. The model records only that an array method name is answered with its instrumentation and is not tracked. Their retry against the raw array is not modelled, and neither is the fact that the retry also fires when the first search finds index 0.
- Effect bodies are abstract. A body is a sequence of reads and nested runs and does no writes, so a cascade in which a triggered effect triggers others is not modelled. `Effect.Trigger` gives the dispatch plan rather than running it, and `Set` iteration order is not modelled.
- Bodies are compared by their flat read lists. Lemmas about exact subscriptions assume a body without nested runs.
- The result a body returns is not modelled. The value a computed or a watch getter produces is a parameter of the operation.
- The microtask queue of `'post'` flush is a count of pending jobs, and promise scheduling itself is not modelled.
- `console.warn` on readonly writes is not modelled.
- `WeakMap` garbage collection is not modelled. Targets are numbered objects that live forever.
- String and number coercion is not modelled. This covers `key >= newVal` in `trigger` and `Number(key)` in the `set` trap beyond indices, `length` and symbols, and writes of `length`: any value but a non-negative number is a `RangeError` in the model, including a string such as `"3"` that JavaScript would coerce (the 2^32 bound is a separate line below). Floating point and `-0` are not modelled, and numbers are integers or `NaN`.
- Reactive.WriteKind: a collection element key is not a property name. On an array it is classified `ADD`, like any other non-index key.
- Reactive.ReflectSet: writing an array index beyond the length grows the length to the index plus one. Holes are not distinguished from `undefined`.
- Reactive.ReflectSet: array lengths and indices are unbounded naturals. JavaScript caps a length at 2^32 - 1 and an index at 2^32 - 2, so `a.length = 4294967296` is a `RangeError` there but succeeds in the model, and `a[4294967295] = 1` is an ordinary property there but grows the model's length.
- Reactive.Get: functions are `Fn` values and are returned as they are; the model does not call them, and a function's own properties are not modelled.
- Watch.TraverseValue: the heap is finite and a read of a property returns the same object every time. That holds for deep `reactive` proxies, which the `reactive` cache gives back unchanged. A deep `readonly` source wraps each nested object in a fresh proxy on every read, so a cyclic one makes the source's `traverse` run forever; shallow variants return the raw nested object and do terminate; the model gives each property one value and cannot express that.
- Effect.RunEffect: states the normal return only; the throwing call is `Effect.RunEffectThrowing`.
- Computed.ReadValue: states a getter that returns; the throwing getter is `Computed.ReadValueThrowing`.
- `src/main.ts` (a usage demo) and the type declarations in `src/index.d.ts` are not part of this model.
- `src/core/store.ts` is not part of this model beyond what its uses show: the `shouldTrack` switch and the distinct `ITERATE_KEY` symbol.

## Findings

| source | as written | input that shows it | evidently intended | confidence | as-written member | corrected member |
|---|---|---|---|---|---|---|
| src/core/reactive.ts:63-66 | the `get` trap treats a key named `size` specially on every target: it tracks the iteration key instead of `size` | `o = reactive({size: 1}); effect(() => o.size); o.size = 2` does not re-run the effect, although the value it read changed | the `size` case applies to `Set`/`Map` targets only, where `size` depends on membership; on other targets `size` is an ordinary property | medium, not executed | SizeRead.SizeOnPlainObjectMissesUpdate | SizeRead.SizeOnPlainObjectSeesUpdate |
| src/core/reactive.ts:28-48, 58-89 | `mutableInstrumentations` is defined but the `get` trap never returns it; reading `add` or `delete` on a collection goes the general way and returns the native `Set.prototype` method, which then runs with the proxy as `this` | `s = reactive(new Set()); s.add(1)` throws a `TypeError`, since the proxy has no internal set slot, so an effect that reads `s.size` never re-runs | the trap returns the `add`/`delete` instrumentation on a collection, which works on the raw collection and triggers `ADD`/`DELETE` | high, not executed | CollectionCall.AddOnReactiveSetThrows | CollectionCall.AddOnReactiveSetReachesSizeReaders |

=== FILE: cleanup.dfy ===
/** `cleanupDeps`: detach an effect from every dependency set listed in its
    `deps` back-reference list, then empty that list. */
module Cleanup {
  import opened Wrappers
  import opened Types

  /** `deps.delete(effectFn)` on the set stored under (t, k). */
  function RemoveOne(store: Store, e: EffectId, t: ObjId, k: Key): (r: Store)
    ensures r.Keys == store.Keys
    ensures forall t': ObjId :: t' in store ==> r[t'].Keys == store[t'].Keys
    ensures Subscribers(r, t, k) == Subscribers(store, t, k) - {e}
    ensures forall t': ObjId, k': Key :: (t', k') != (t, k) ==> Subscribers(r, t', k') == Subscribers(store, t', k')
  {
    if t in store && k in store[t] then store[t := store[t][k := store[t][k] - {e}]] else store
  }

  /** Remove `e` from every set listed in `ds`, one after the other. No map
      entry is created or dropped; only the listed sets lose `e`. */
  function RemoveAll(store: Store, e: EffectId, ds: seq<Dep>): (r: Store)
    ensures r.Keys == store.Keys
    ensures forall t: ObjId :: t in store ==> r[t].Keys == store[t].Keys
    ensures forall t: ObjId, k: Key :: Subscribers(r, t, k) ==
              if (t, k) in ds then Subscribers(store, t, k) - {e} else Subscribers(store, t, k)
    decreases |ds|
  {
    if |ds| == 0 then store
    else RemoveAll(RemoveOne(store, e, ds[0].0, ds[0].1), e, ds[1..])
  }

  /** `cleanupDeps(effectFn)` */
  function CleanupDeps(s: State, e: EffectId): (r: State)
    ensures DepsOf(r, e) == []
    ensures forall t: ObjId, k: Key :: (t, k) in DepsOf(s, e) ==> e !in Subscribers(r.store, t, k)
    ensures forall t: ObjId, k: Key, e': EffectId :: e' != e ==> (e' in Subscribers(r.store, t, k) <==> e' in Subscribers(s.store, t, k))
    ensures forall t: ObjId, k: Key :: (t, k) !in DepsOf(s, e) ==> Subscribers(r.store, t, k) == Subscribers(s.store, t, k)
    ensures forall e': EffectId :: e' != e ==> DepsOf(r, e') == DepsOf(s, e')
    ensures r.active == s.active && r.stack == s.stack && r.shouldTrack == s.shouldTrack && r.runs == s.runs
    ensures r.store.Keys == s.store.Keys
    ensures Consistent(s) ==> Consistent(r) && Detached(r.store, e)
  {
    var r := s.(store := RemoveAll(s.store, e, DepsOf(s, e)), deps := s.deps[e := []]);
    CleanupKeepsLinked(s, e, r);
    r
  }

  lemma CleanupKeepsLinked(s: State, e: EffectId, r: State)
    requires r == s.(store := RemoveAll(s.store, e, DepsOf(s, e)), deps := s.deps[e := []])
    ensures Consistent(s) ==> Consistent(r) && Detached(r.store, e)
  {
    if Consistent(s) {
      forall t: ObjId, k: Key, e': EffectId | e' in Subscribers(r.store, t, k)
        ensures (t, k) in DepsIn(r.deps, e')
      {
        if (t, k) !in DepsOf(s, e) {
          assert e' != e;
        }
        assert e' in Subscribers(s.store, t, k);
        assert (t, k) in DepsIn(s.deps, e');
      }
      assert Detached(r.store, e);
    }
  }

  /** A second cleanup finds an empty `deps` list and changes nothing. */
  lemma CleanupIdempotent(s: State, e: EffectId)
    ensures CleanupDeps(CleanupDeps(s, e), e) == CleanupDeps(s, e)
  {
  }
}

=== FILE: computed.dfy ===
/** `computed(getter)`: a lazy effect with a dirty flag, a cached value, a
    scheduler that marks the cache stale and notifies readers of `value`, and
    a `value` accessor that recomputes only when dirty and always tracks. */
module Computed {
  import opened Wrappers
  import opened Types
  import opened Cleanup
  import opened Effect
  import opened EffectProperties

  /** The closure state of one computed: its accessor object `obj`, its
      effect, `dirty` and the cached `value`. Each evaluation of the getter is
      a call of the effect, recorded in the state's `runs`. */
  datatype ComputedRef = ComputedRef(obj: ObjId, effect: EffectId, dirty: bool, value: Value)

  /** The options `computed` passes to `effect`. */
  function ComputedOptions(obj: ObjId): Options {
    Options(true, Some(ComputedScheduler(obj)))
  }

  /** `computed(getter)`: the effect is created lazily, so the getter is not
      evaluated, and the cache starts dirty. */
  function NewComputed(s: State, reg: Registry, obj: ObjId, e: EffectId, getter: seq<Step>): (r: (ComputedRef, State, Registry))
    requires e !in reg && e !in s.deps
    ensures r.0.dirty && r.0.obj == obj && r.0.effect == e
    ensures r.1.runs == s.runs
    ensures r.2 == reg[e := ComputedOptions(obj)]
    ensures DepsOf(r.1, e) == []
    ensures Consistent(s) ==> Consistent(r.1) && Detached(r.1.store, e)
  {
    var (s1, reg1) := CreateEffect(s, reg, e, ComputedOptions(obj), getter);
    (ComputedRef(obj, e, true, Undefined), s1, reg1)
  }

  /** Reading `value`. The getter's reads are `getter` and the value it
      returns this time is `result`. */
  function ReadValue(s: State, c: ComputedRef, getter: seq<Step>, result: Value): (r: (Value, ComputedRef, State))
    ensures !r.1.dirty && r.1.value == r.0
    ensures c.dirty ==> |r.2.runs| > |s.runs| && r.2.runs[..|s.runs| + 1] == s.runs + [c.effect]
    ensures c.dirty && Flat(getter) ==> r.2.runs == s.runs + [c.effect]
    ensures !c.dirty ==> r.2.runs == s.runs
    ensures c.dirty ==> r.0 == result
    ensures !c.dirty ==> r.0 == c.value
    ensures r.1.obj == c.obj && r.1.effect == c.effect
    ensures r.2.stack == s.stack && r.2.shouldTrack == s.shouldTrack
    ensures ActiveIsTop(s) ==> r.2.active == s.active
    ensures ActiveIsTop(s) && s.active.Some? && s.shouldTrack ==> s.active.value in Subscribers(r.2.store, c.obj, ValueKey)
    ensures Consistent(s) ==> Consistent(r.2)
  {
    var c1 := if c.dirty then c.(dirty := false, value := result) else c;
    var s1 := if c.dirty then RunEffect(s, c.effect, getter) else s;
    RunFlatRunsOnce(s, c.effect, getter);
    (c1.value, c1, Track(s1, c.obj, ValueKey))
  }

  /** Reading `value` when the getter throws after its reads `before`.
      `dirty` is cleared before the getter is called, so a throwing getter
      leaves the computed clean with its old cached value; the throw skips
      `track(obj, 'value')` and leaves the computed's effect pushed and
      active. Reading a clean computed never calls the getter, so it cannot
      throw and answers `Some` of the cache like `ReadValue`. */
  function ReadValueThrowing(s: State, c: ComputedRef, before: seq<Step>): (r: (Option<Value>, ComputedRef, State))
    ensures c.dirty <==> r.0.None?
    ensures !r.1.dirty && r.1.value == c.value
    ensures r.1.obj == c.obj && r.1.effect == c.effect
    ensures c.dirty ==> r.2.active == Some(c.effect) && r.2.stack == s.stack + [c.effect]
    ensures c.dirty ==> |r.2.runs| > |s.runs| && r.2.runs[..|s.runs| + 1] == s.runs + [c.effect]
    ensures !c.dirty ==> r.0 == Some(c.value) && r.2.runs == s.runs && r.2.stack == s.stack
    ensures Consistent(s) ==> Consistent(r.2)
  {
    if c.dirty then
      (None, c.(dirty := false), RunEffectThrowing(s, c.effect, before))
    else
      var (v, c1, s1) := ReadValue(s, c, [], Undefined);
      (Some(v), c1, s1)
  }

  /** After the getter has thrown once, the computed stays stale: the next
      read returns the value cached before the throw and evaluates nothing,
      until the scheduler marks it dirty again. */
  lemma ThrowLeavesStaleValue(s: State, c: ComputedRef, before: seq<Step>, getter: seq<Step>, v: Value)
    requires c.dirty
    ensures var (x1, c1, s1) := ReadValueThrowing(s, c, before);
      var (x2, c2, s2) := ReadValue(s1, c1, getter, v);
      && x1 == None && x2 == c.value && s2.runs == s1.runs
  {
  }

  /** The scheduler: when clean, mark dirty and trigger `(obj, 'value', SET)`;
      when already dirty, do nothing. */
  function Schedule(s: State, reg: Registry, c: ComputedRef): (r: (ComputedRef, map<EffectId, Action>))
    ensures c.dirty ==> r == (c, map[])
    ensures !c.dirty ==> r.0 == c.(dirty := true)
    ensures !c.dirty ==> r.1.Keys == Select(s, c.obj, ValueKey, Set, Undefined, false)
  {
    if c.dirty then (c, map[])
    else (c.(dirty := true), Trigger(s, reg, c.obj, ValueKey, Set, Undefined, false))
  }

  /** Laziness and caching: two reads with no change in between evaluate the
      getter at most once (only the first, and only if dirty), and the second
      returns the first's value. */
  lemma ReadTwiceEvaluatesOnce(s: State, c: ComputedRef, getter: seq<Step>, v1: Value, v2: Value)
    requires Flat(getter)
    ensures var (x1, c1, s1) := ReadValue(s, c, getter, v1);
      var (x2, c2, s2) := ReadValue(s1, c1, getter, v2);
      && x2 == x1
      && s2.runs == s.runs + (if c.dirty then [c.effect] else [])
  {
  }

  /** After a new computed, the first read evaluates the getter exactly once
      and returns its result. */
  lemma FirstReadEvaluates(s: State, reg: Registry, obj: ObjId, e: EffectId, getter: seq<Step>, v: Value)
    requires e !in reg && e !in s.deps && Flat(getter)
    ensures var (c, s1, _) := NewComputed(s, reg, obj, e, getter);
      var (x, c1, s2) := ReadValue(s1, c, getter, v);
      x == v && s2.runs == s.runs + [e] && !c1.dirty
  {
  }

  /** A change the scheduler sees makes the next read evaluate again, exactly
      once, and return the new result. */
  lemma ScheduleThenReadReevaluates(s: State, reg: Registry, c: ComputedRef, getter: seq<Step>, v: Value)
    requires !c.dirty && Flat(getter)
    ensures var (c1, _) := Schedule(s, reg, c);
      var (x, c2, s2) := ReadValue(s, c1, getter, v);
      x == v && s2.runs == s.runs + [c.effect]
  {
  }

  /** The whole loop: when the computed's effect has read (t, k) while
      evaluating, a `SET` on (t, k) from outside passes the effect to the
      computed's scheduler; a clean computed then becomes dirty and selects
      every effect that read `value` (other than the running one). */
  lemma DependencyChangeReachesReaders(s: State, reg: Registry, c: ComputedRef, getter: seq<Step>,
                                       t: ObjId, k: Key, newVal: Value, reader: EffectId)
    requires Consistent(s) && s.shouldTrack && Flat(getter) && (t, k) in DirectReads(getter)
    requires c.effect in reg && reg[c.effect] == ComputedOptions(c.obj)
    requires Top(s.stack) != Some(c.effect)
    requires reader in Subscribers(s.store, c.obj, ValueKey) && reader != c.effect && Top(s.stack) != Some(reader)
    ensures var s1 := RunEffect(s, c.effect, getter);
      var plan := Trigger(s1, reg, t, k, Set, newVal, false);
      && c.effect in plan && plan[c.effect] == PassToScheduler(ComputedScheduler(c.obj))
      && reader in Schedule(s1, reg, c.(dirty := false)).1
      && Schedule(s1, reg, c.(dirty := false)).0.dirty
  {
    RunRecordsExactly(s, c.effect, getter);
  }
}

=== FILE: effect.dfy ===
/** `track`, `trigger` and the `effect` run wrapper. */
module Effect {
  import opened Wrappers
  import opened Types
  import opened Cleanup

  // ---------------------------------------------------------------- track

  /** The state after `track(t, k)`. */
  function Track(s: State, t: ObjId, k: Key): (r: State)
    ensures s.active.None? || !s.shouldTrack ==> r == s
    ensures s.active.Some? && s.shouldTrack ==>
      var e := s.active.value;
      && t in r.store && k in r.store[t]
      && r.store[t][k] == Subscribers(s.store, t, k) + {e}
      && DepsOf(r, e) == DepsOf(s, e) + [(t, k)]
      && r.store.Keys == s.store.Keys + {t}
      && (forall t': ObjId, k': Key :: (t', k') != (t, k) ==> Subscribers(r.store, t', k') == Subscribers(s.store, t', k'))
      && (forall e': EffectId :: e' != e ==> DepsOf(r, e') == DepsOf(s, e'))
    ensures r.active == s.active && r.stack == s.stack && r.shouldTrack == s.shouldTrack && r.runs == s.runs
    ensures Consistent(s) ==> Consistent(r)
  {
    if s.active.None? || !s.shouldTrack then s
    else
      var e := s.active.value;
      var depsMap := if t in s.store then s.store[t] else map[];
      var deps := if k in depsMap then depsMap[k] else {};
      var r := s.(store := s.store[t := depsMap[k := deps + {e}]],
                  deps := s.deps[e := DepsOf(s, e) + [(t, k)]]);
      TrackKeepsLinked(s, t, k, r);
      r
  }

  lemma TrackKeepsLinked(s: State, t: ObjId, k: Key, r: State)
    requires s.active.Some?
    requires r == s.(store := s.store[t := (if t in s.store then s.store[t] else map[])
                                          [k := Subscribers(s.store, t, k) + {s.active.value}]],
                     deps := s.deps[s.active.value := DepsOf(s, s.active.value) + [(t, k)]])
    ensures Consistent(s) ==> Consistent(r)
  {
    if Consistent(s) {
      forall t': ObjId, k': Key, e': EffectId | e' in Subscribers(r.store, t', k')
        ensures (t', k') in DepsIn(r.deps, e')
      {
        if (t', k') != (t, k) || e' != s.active.value {
          assert e' in Subscribers(s.store, t', k');
          assert (t', k') in DepsIn(s.deps, e');
        }
      }
    }
  }

  // -------------------------------------------------------------- trigger

  /** `(key as number) >= newVal`, with index keys as naturals; a non-index key
      and a non-numeric new value never compare as at-or-beyond. */
  predicate IndexAtOrBeyond(k: Key, newVal: Value)
    ensures !k.Index? || !newVal.Num? ==> !IndexAtOrBeyond(k, newVal)
    ensures k.Index? && newVal.Num? && newVal.n <= 0 ==> IndexAtOrBeyond(k, newVal)
    ensures k.Index? && newVal.Num? && k.i < newVal.n ==> !IndexAtOrBeyond(k, newVal)
  {
    k.Index? && newVal.Num? && k.i >= newVal.n
  }

  /** The set minus the effect currently running (`effectFn !== activeEffect`). */
  function ExceptActive(es: set<EffectId>, active: Option<EffectId>): set<EffectId> {
    if active.Some? then es - {active.value} else es
  }

  /** Every effect subscribed to some key of the target. */
  function AllSubscribers(store: Store, t: ObjId): set<EffectId> {
    if t in store then (set k, e | k in store[t] && e in store[t][k] :: e) else {}
  }

  /** `e` subscribes to some index of `t` at or beyond `newVal`. */
  ghost predicate SubscribesAtOrBeyond(store: Store, t: ObjId, newVal: Value, e: EffectId) {
    exists k': Key :: IndexAtOrBeyond(k', newVal) && e in Subscribers(store, t, k')
  }

  /** `effectsToRun` as built by `trigger(t, k, type, newVal)`; `isArray` is
      `Array.isArray(target)`. */
  function Select(s: State, t: ObjId, k: Key, change: ChangeType, newVal: Value, isArray: bool): (r: set<EffectId>)
    ensures t !in s.store ==> r == {}
    ensures s.active.Some? ==> s.active.value !in r
    ensures r <= AllSubscribers(s.store, t)
    ensures ExceptActive(Subscribers(s.store, t, k), s.active) <= r
    ensures isArray && k == LengthKey ==>
      forall k': Key, e: EffectId :: IndexAtOrBeyond(k', newVal) && e in Subscribers(s.store, t, k') && Some(e) != s.active ==> e in r
    ensures change == Add && isArray ==> ExceptActive(Subscribers(s.store, t, LengthKey), s.active) <= r
    ensures change == Add || change == Delete ==> ExceptActive(Subscribers(s.store, t, IterateKey), s.active) <= r
    ensures change == Set && k != LengthKey ==> r == ExceptActive(Subscribers(s.store, t, k), s.active)
    ensures change == Set && !isArray ==> r == ExceptActive(Subscribers(s.store, t, k), s.active)
    ensures forall e :: e in r ==>
      || e in Subscribers(s.store, t, k)
      || (isArray && k == LengthKey && SubscribesAtOrBeyond(s.store, t, newVal, e))
      || (change == Add && isArray && e in Subscribers(s.store, t, LengthKey))
      || ((change == Add || change == Delete) && e in Subscribers(s.store, t, IterateKey))
  {
    if t !in s.store then {}
    else
      var depsMap := s.store[t];
      var fromKey := Subscribers(s.store, t, k);
      var fromIndices :=
        if isArray && k == LengthKey
        then (set k', e | k' in depsMap && IndexAtOrBeyond(k', newVal) && e in depsMap[k'] :: e)
        else {};
      var fromLength := if change == Add && isArray then Subscribers(s.store, t, LengthKey) else {};
      var fromIterate := if change == Add || change == Delete then Subscribers(s.store, t, IterateKey) else {};
      ExceptActive(fromKey + fromIndices + fromLength + fromIterate, s.active)
  }

  /** Who a scheduler belongs to: a user-supplied callback, a computed's
      dirty-flag scheduler, or a watch's job scheduler. */
  datatype Scheduler = UserScheduler(id: nat) | ComputedScheduler(obj: ObjId) | WatchScheduler(watch: nat)

  /** `EffectOpt`: `lazy` and an optional `scheduler`. */
  datatype Options = Options(lazy: bool, scheduler: Option<Scheduler>)

  /** The options of every created effect (`effectFn.options`). */
  type Registry = map<EffectId, Options>

  /** How a selected effect is dispatched. */
  datatype Action = RunDirectly | PassToScheduler(scheduler: Scheduler)

  function ActionFor(reg: Registry, e: EffectId): Action {
    if e in reg && reg[e].scheduler.Some? then PassToScheduler(reg[e].scheduler.value) else RunDirectly
  }

  /** `trigger(t, k, type, newVal)`: each selected effect with the action taken
      on it. */
  function Trigger(s: State, reg: Registry, t: ObjId, k: Key, change: ChangeType, newVal: Value, isArray: bool)
    : (plan: map<EffectId, Action>)
    ensures plan.Keys == Select(s, t, k, change, newVal, isArray)
    ensures forall e :: e in plan ==>
      (plan[e].PassToScheduler? <==> e in reg && reg[e].scheduler.Some?)
    ensures forall e :: e in plan && plan[e].PassToScheduler? ==> Some(plan[e].scheduler) == reg[e].scheduler
  {
    map e | e in Select(s, t, k, change, newVal, isArray) :: ActionFor(reg, e)
  }

  // --------------------------------------------------------------- effect

  /** An effect body, abstractly: the reads it performs (each a `track`) and
      the effects it runs in a nested way, in order. */
  datatype Step = Read(target: ObjId, key: Key) | Nested(effect: EffectId, body: seq<Step>)

  function StepSize(st: Step): (n: nat)
    ensures n >= 1
  {
    match st
    case Read(_, _) => 1
    case Nested(_, b) => 1 + BodySize(b)
  }

  function BodySize(body: seq<Step>): nat {
    if |body| == 0 then 0 else StepSize(body[0]) + BodySize(body[1..])
  }

  /** One step of a body: a read is a `track`, a nested effect is a call. */
  function ExecStep(s: State, st: Step): (r: State)
    ensures r.stack == s.stack && r.shouldTrack == s.shouldTrack
    ensures ActiveIsTop(s) ==> r.active == s.active
    ensures Prefix(s.runs, r.runs)
    ensures Consistent(s) ==> Consistent(r)
    decreases StepSize(st), 1
  {
    match st
    case Read(t, k) => Track(s, t, k)
    case Nested(e, b) => RunEffect(s, e, b)
  }

  /** Executing a body attributes its reads to the active effect; the stack
      and the active effect are as they were at the start. */
  function ExecBody(s: State, body: seq<Step>): (r: State)
    ensures r.stack == s.stack && r.shouldTrack == s.shouldTrack
    ensures ActiveIsTop(s) ==> r.active == s.active
    ensures Prefix(s.runs, r.runs)
    ensures Consistent(s) ==> Consistent(r)
    decreases BodySize(body), 2
  {
    if |body| == 0 then s
    else
      assert BodySize(body) == StepSize(body[0]) + BodySize(body[1..]);
      var s1 := ExecStep(s, body[0]);
      var r := ExecBody(s1, body[1..]);
      PrefixTrans(s.runs, s1.runs, r.runs);
      r
  }

  /** One call of `effectFn`: cleanup, make it active and push it, run the
      body, pop, and make the new top active. */
  function RunEffect(s: State, e: EffectId, body: seq<Step>): (r: State)
    ensures r.stack == s.stack
    ensures r.active == Top(s.stack)
    ensures ActiveIsTop(s) ==> r.active == s.active
    ensures r.shouldTrack == s.shouldTrack
    ensures |r.runs| > |s.runs| && r.runs[..|s.runs| + 1] == s.runs + [e]
    ensures Consistent(s) ==> Consistent(r)
    decreases BodySize(body) + 1, 0
  {
    var s1 := CleanupDeps(s, e);
    var s2 := s1.(active := Some(e), stack := s1.stack + [e], runs := s1.runs + [e]);
    var s3 := ExecBody(s2, body);
    assert |s3.stack| > 0;
    var popped := s3.stack[..|s3.stack| - 1];
    s3.(stack := popped, active := Top(popped))
  }

  /** A call of `effectFn` whose body throws after running `before`. The
      wrapper has no `finally`: the pop and the restore of the previous
      active effect are skipped, so the effect stays pushed and active. */
  function RunEffectThrowing(s: State, e: EffectId, before: seq<Step>): (r: State)
    ensures r.stack == s.stack + [e]
    ensures r.active == Some(e)
    ensures r.shouldTrack == s.shouldTrack
    ensures |r.runs| > |s.runs| && r.runs[..|s.runs| + 1] == s.runs + [e]
    ensures Consistent(s) ==> Consistent(r)
  {
    var s1 := CleanupDeps(s, e);
    var s2 := s1.(active := Some(e), stack := s1.stack + [e], runs := s1.runs + [e]);
    var r := ExecBody(s2, before);
    assert r.runs[..|s.runs| + 1] == r.runs[..|s2.runs|];
    r
  }
}

module EffectProperties {
  import opened Wrappers
  import opened Types
  import opened Cleanup
  import opened Effect

  /** A body that only reads, running no nested effect. */
  predicate Flat(body: seq<Step>) {
    forall i :: 0 <= i < |body| ==> body[i].Read?
  }

  /** The (target, key) pairs a body reads itself, in order. */
  function DirectReads(body: seq<Step>): seq<Dep> {
    if |body| == 0 then []
    else match body[0]
      case Read(t, k) => [(t, k)] + DirectReads(body[1..])
      case Nested(_, _) => DirectReads(body[1..])
  }

  /** With tracking enabled, a flat body subscribes the active effect to exactly
      the pairs it reads, appends them to its `deps` in order, and touches no
      other effect. */
  lemma {:induction false} ExecFlatBody(s: State, body: seq<Step>)
    requires Flat(body) && s.active.Some? && s.shouldTrack
    ensures var r := ExecBody(s, body); var e := s.active.value;
      && DepsOf(r, e) == DepsOf(s, e) + DirectReads(body)
      && (forall t: ObjId, k: Key :: Subscribers(r.store, t, k) ==
            Subscribers(s.store, t, k) + (if (t, k) in DirectReads(body) then {e} else {}))
      && (forall e': EffectId :: e' != e ==> DepsOf(r, e') == DepsOf(s, e'))
      && r.runs == s.runs
    decreases |body|
  {
    if |body| > 0 {
      var s1 := Track(s, body[0].target, body[0].key);
      assert ExecBody(s, body) == ExecBody(s1, body[1..]);
      assert Flat(body[1..]) by {
        forall i | 0 <= i < |body[1..]| ensures body[1..][i].Read? {
          assert body[1..][i] == body[i + 1];
        }
      }
      ExecFlatBody(s1, body[1..]);
      assert DirectReads(body) == [(body[0].target, body[0].key)] + DirectReads(body[1..]);
    }
  }

  /** Stale-subscription elimination: after a run of a flat body, the effect
      belongs to exactly the sets of the pairs that run read, its `deps` list
      is those pairs in order, and every other effect's memberships and list
      are as before. */
  lemma RunRecordsExactly(s: State, e: EffectId, body: seq<Step>)
    requires Consistent(s) && s.shouldTrack && Flat(body)
    ensures var r := RunEffect(s, e, body);
      && DepsOf(r, e) == DirectReads(body)
      && (forall t: ObjId, k: Key :: e in Subscribers(r.store, t, k) <==> (t, k) in DirectReads(body))
      && (forall t: ObjId, k: Key, e': EffectId :: e' != e ==>
            (e' in Subscribers(r.store, t, k) <==> e' in Subscribers(s.store, t, k)))
      && (forall e': EffectId :: e' != e ==> DepsOf(r, e') == DepsOf(s, e'))
      && r.runs == s.runs + [e]
  {
    var s1 := CleanupDeps(s, e);
    var s2 := s1.(active := Some(e), stack := s1.stack + [e], runs := s1.runs + [e]);
    ExecFlatBody(s2, body);
    assert Detached(s2.store, e);
    var r := RunEffect(s, e, body);
    assert r.deps == ExecBody(s2, body).deps;
    forall e': EffectId | e' != e ensures DepsOf(r, e') == DepsOf(s, e') {
      assert DepsOf(s2, e') == DepsOf(s1, e');
    }
  }

  /** A read recorded while `e` runs makes a later write to that pair, made
      while another effect (or none) is active, select `e`. */
  lemma TrackedReadIsTriggered(s: State, t: ObjId, k: Key, other: Option<EffectId>, newVal: Value, isArray: bool)
    requires s.active.Some? && s.shouldTrack && other != s.active
    ensures var r := Track(s, t, k).(active := other);
      forall change :: s.active.value in Select(r, t, k, change, newVal, isArray)
  {
  }

  /** After a run of a flat body from outside the effect, a `SET` on (t, k)
      selects the effect exactly when the body read (t, k). */
  lemma RunThenSetSelectsIff(s: State, e: EffectId, body: seq<Step>, t: ObjId, k: Key, newVal: Value)
    requires Consistent(s) && s.shouldTrack && Flat(body)
    requires Top(s.stack) != Some(e)
    ensures var r := RunEffect(s, e, body);
      && Consistent(r) && r.stack == s.stack && r.shouldTrack
      && (e in Select(r, t, k, Set, newVal, false) <==> (t, k) in DirectReads(body))
  {
    var r := RunEffect(s, e, body);
    RunRecordsExactly(s, e, body);
    assert e in Subscribers(r.store, t, k) <==> (t, k) in DirectReads(body);
    assert r.active != Some(e);
    assert Select(r, t, k, Set, newVal, false) == ExceptActive(Subscribers(r.store, t, k), r.active);
  }

  /** A branch switch: a run that reads (t, k) and a later run
      that does not; a `SET` on (t, k) selects the effect after the first run
      and no longer after the second. */
  lemma StaleBranchNotTriggered(s: State, e: EffectId, first: seq<Step>, second: seq<Step>, t: ObjId, k: Key, newVal: Value)
    requires Consistent(s) && s.shouldTrack && Flat(first) && Flat(second)
    requires Top(s.stack) != Some(e)
    requires (t, k) in DirectReads(first) && (t, k) !in DirectReads(second)
    ensures var r1 := RunEffect(s, e, first);
      && e in Select(r1, t, k, Set, newVal, false)
      && e !in Select(RunEffect(r1, e, second), t, k, Set, newVal, false)
  {
    RunThenSetSelectsIff(s, e, first, t, k, newVal);
    RunThenSetSelectsIff(RunEffect(s, e, first), e, second, t, k, newVal);
  }

  /** Nesting: an inner effect run at the start of an outer body gets the inner
      reads; afterwards the outer effect is active again, gets the remaining
      reads, and the stack is as before. */
  lemma NestedRunRestoresOuter(s: State, outer: EffectId, inner: EffectId, innerBody: seq<Step>, rest: seq<Step>)
    requires Consistent(s) && s.shouldTrack && Flat(innerBody) && Flat(rest) && inner != outer
    ensures var r := RunEffect(s, outer, [Nested(inner, innerBody)] + rest);
      && r.stack == s.stack && r.active == Top(s.stack)
      && DepsOf(r, outer) == DirectReads(rest)
      && DepsOf(r, inner) == DirectReads(innerBody)
      && (forall t: ObjId, k: Key :: outer in Subscribers(r.store, t, k) <==> (t, k) in DirectReads(rest))
  {
    var body := [Nested(inner, innerBody)] + rest;
    var s1 := CleanupDeps(s, outer);
    var s2 := s1.(active := Some(outer), stack := s1.stack + [outer], runs := s1.runs + [outer]);
    var s3 := RunEffect(s2, inner, innerBody);
    assert body[1..] == rest;
    assert ExecBody(s2, body) == ExecBody(s3, rest);
    RunRecordsExactly(s2, inner, innerBody);
    assert Detached(s2.store, outer);
    assert Detached(s3.store, outer);
    assert s3.active == Some(outer);
    ExecFlatBody(s3, rest);
  }

  /** `effect(fn, options)`: a fresh effect function with its options and an
      empty `deps` list, run once at once unless `lazy`. */
  function CreateEffect(s: State, reg: Registry, e: EffectId, opts: Options, body: seq<Step>): (r: (State, Registry))
    requires e !in reg && e !in s.deps
    ensures r.1 == reg[e := opts]
    ensures opts.lazy ==> DepsOf(r.0, e) == []
    ensures opts.lazy && Consistent(s) ==> Consistent(r.0) && Detached(r.0.store, e)
    ensures opts.lazy ==> r.0.runs == s.runs
    ensures !opts.lazy ==> |r.0.runs| > |s.runs| && r.0.runs[..|s.runs| + 1] == s.runs + [e]
    ensures !opts.lazy && Flat(body) ==> r.0.runs == s.runs + [e]
    ensures !opts.lazy && Consistent(s) && s.shouldTrack && Flat(body) ==>
      && DepsOf(r.0, e) == DirectReads(body)
      && forall t: ObjId, k: Key :: e in Subscribers(r.0.store, t, k) <==> (t, k) in DirectReads(body)
    ensures r.0.stack == s.stack && r.0.shouldTrack == s.shouldTrack
  {
    var s1 := s.(deps := s.deps[e := []]);
    FreshEffectDetached(s, e, s1);
    if opts.lazy then (s1, reg[e := opts])
    else
      RunRecordsExactlyWhen(s1, e, body);
      RunFlatRunsOnce(s1, e, body);
      (RunEffect(s1, e, body), reg[e := opts])
  }

  lemma FreshEffectDetached(s: State, e: EffectId, s1: State)
    requires e !in s.deps && s1 == s.(deps := s.deps[e := []])
    ensures Consistent(s) ==> Consistent(s1) && Detached(s1.store, e)
  {
    if Consistent(s) {
      forall t: ObjId, k: Key ensures e !in Subscribers(s.store, t, k) {
        assert DepsIn(s.deps, e) == [];
      }
      forall t: ObjId, k: Key, e': EffectId | e' in Subscribers(s1.store, t, k)
        ensures (t, k) in DepsIn(s1.deps, e')
      {
        assert (t, k) in DepsIn(s.deps, e');
      }
    }
  }

  /** A run of a flat body starts exactly one effect call: its own. */
  lemma RunFlatRunsOnce(s: State, e: EffectId, body: seq<Step>)
    ensures Flat(body) ==> RunEffect(s, e, body).runs == s.runs + [e]
  {
    if Flat(body) {
      var s1 := CleanupDeps(s, e);
      var s2 := s1.(active := Some(e), stack := s1.stack + [e], runs := s1.runs + [e]);
      ExecFlatRuns(s2, body);
    }
  }

  lemma {:induction false} ExecFlatRuns(s: State, body: seq<Step>)
    requires Flat(body)
    ensures ExecBody(s, body).runs == s.runs
    decreases |body|
  {
    if |body| > 0 {
      assert Flat(body[1..]) by {
        forall i | 0 <= i < |body[1..]| ensures body[1..][i].Read? {
          assert body[1..][i] == body[i + 1];
        }
      }
      ExecFlatRuns(Track(s, body[0].target, body[0].key), body[1..]);
    }
  }

  lemma RunRecordsExactlyWhen(s: State, e: EffectId, body: seq<Step>)
    ensures Consistent(s) && s.shouldTrack && Flat(body) ==>
      && DepsOf(RunEffect(s, e, body), e) == DirectReads(body)
      && forall t: ObjId, k: Key :: e in Subscribers(RunEffect(s, e, body).store, t, k) <==> (t, k) in DirectReads(body)
  {
    if Consistent(s) && s.shouldTrack && Flat(body) {
      RunRecordsExactly(s, e, body);
    }
  }

  /** While tracking is switched off, a run records nothing: the effect ends up
      in no set whatever its body reads. */
  lemma RunWhileUntrackedRecordsNothing(s: State, e: EffectId, body: seq<Step>)
    requires Consistent(s) && !s.shouldTrack && Flat(body)
    ensures Detached(RunEffect(s, e, body).store, e)
    ensures DepsOf(RunEffect(s, e, body), e) == []
  {
    var s1 := CleanupDeps(s, e);
    var s2 := s1.(active := Some(e), stack := s1.stack + [e], runs := s1.runs + [e]);
    ExecUntracked(s2, body);
  }

  lemma {:induction false} ExecUntracked(s: State, body: seq<Step>)
    requires !s.shouldTrack && Flat(body)
    ensures ExecBody(s, body).store == s.store && ExecBody(s, body).deps == s.deps
    decreases |body|
  {
    if |body| > 0 {
      assert Flat(body[1..]) by {
        forall i | 0 <= i < |body[1..]| ensures body[1..][i].Read? {
          assert body[1..][i] == body[i + 1];
        }
      }
      ExecUntracked(Track(s, body[0].target, body[0].key), body[1..]);
    }
  }

  /** After a body throws, the effect is still active: a read made later
      outside any effect subscribes it, and an effect run later hands control
      back to it rather than to the effect that was active before. */
  lemma ThrowLeavesEffectActive(s: State, e: EffectId, before: seq<Step>, t: ObjId, k: Key, other: EffectId, body: seq<Step>)
    requires s.shouldTrack
    ensures var r := RunEffectThrowing(s, e, before);
      && e in Subscribers(Track(r, t, k).store, t, k)
      && RunEffect(r, other, body).active == Some(e)
      && RunEffect(r, other, body).stack == s.stack + [e]
  {
  }
}

=== FILE: reactive.dfy ===
/** The proxy handler of `createReactive`: which key a read tracks, how a write
    or delete is classified and when it notifies, the collection `add`/`delete`
    instrumentations, the `shouldTrack` array instrumentations, and the
    `reactive` identity cache with its uncached variants. A handler operation
    returns what it reports, the new raw target, and the key it tracks or the
    notification it passes to `trigger`; `ReactiveStore` composes these with
    the dependency store. */
module Reactive {
  import opened Wrappers
  import opened Types
  import opened Effect

  // ------------------------------------------------------------ raw targets

  /** A raw target: a plain object, an array (index keys plus a separate
      `length`), or a Set-like collection. Each has own properties. */
  datatype Raw =
    | PlainObject(props: map<Key, Value>)
    | ArrayObject(props: map<Key, Value>, length: nat)
    | Collection(props: map<Key, Value>, members: set<Value>)

  /** An array holds no own `length` entry in `props` and no index at or beyond
      its length. */
  predicate WfRaw(raw: Raw) {
    raw.ArrayObject? ==>
      LengthKey !in raw.props && forall k :: k in raw.props && k.Index? ==> k.i < raw.length
  }

  /** Errors the host raises inside a trap. */
  datatype JsError = TypeError | RangeError

  /** `Object.prototype.hasOwnProperty.call(target, key)` */
  predicate HasOwn(raw: Raw, k: Key)
    ensures raw.ArrayObject? && k == LengthKey ==> HasOwn(raw, k)
    ensures !HasOwn(raw, k) ==> ReflectGet(raw, k) == Undefined || (raw.Collection? && k == SizeKey)
  {
    (raw.ArrayObject? && k == LengthKey) || k in raw.props
  }

  /** `Reflect.get(target, key)` / `target[key]` on own state (no prototype
      chain beyond a collection's `size` getter). */
  function ReflectGet(raw: Raw, k: Key): (r: Value)
    ensures raw.ArrayObject? && k == LengthKey ==> r == Num(raw.length)
    ensures k in raw.props && !(raw.ArrayObject? && k == LengthKey) ==> r == raw.props[k]
    ensures raw.Collection? && k == SizeKey && k !in raw.props ==> r == Num(|raw.members|)
    ensures r != Undefined ==> k in raw.props || (raw.ArrayObject? && k == LengthKey) || (raw.Collection? && k == SizeKey)
  {
    if raw.ArrayObject? && k == LengthKey then Num(raw.length)
    else if k in raw.props then raw.props[k]
    else if raw.Collection? && k == SizeKey then Num(|raw.members|)
    else Undefined
  }

  /** The array after `length = n`: indices at or beyond `n` are gone. */
  function Truncate(props: map<Key, Value>, n: nat): (r: map<Key, Value>)
    ensures forall k :: k in r <==> k in props && !IndexAtOrBeyond(k, Num(n))
    ensures forall k :: k in r ==> r[k] == props[k]
  {
    map k | k in props && !IndexAtOrBeyond(k, Num(n)) :: props[k]
  }

  /** `Reflect.set(target, key, newVal)` on an extensible target with writable
      data properties. Writing an index at or beyond an array's length extends
      it; writing `length` truncates, and anything but a non-negative number
      there is a `RangeError`. */
  function ReflectSet(raw: Raw, k: Key, v: Value): (r: Result<Raw, JsError>)
    ensures r.Failure? <==> raw.ArrayObject? && k == LengthKey && !(v.Num? && v.n >= 0)
    ensures r.Success? ==> ReflectGet(r.value, k) == v
    ensures r.Success? && WfRaw(raw) ==> WfRaw(r.value)
    ensures r.Success? && raw.PlainObject? ==> r.value == PlainObject(raw.props[k := v])
    ensures r.Success? && raw.Collection? ==> r.value == Collection(raw.props[k := v], raw.members)
    ensures r.Success? && raw.ArrayObject? && k != LengthKey ==>
      r.value == ArrayObject(raw.props[k := v], if k.Index? && k.i >= raw.length then k.i + 1 else raw.length)
    ensures r.Success? && raw.ArrayObject? && k == LengthKey ==>
      v.Num? && v.n >= 0 && r.value == ArrayObject(Truncate(raw.props, v.n), v.n)
  {
    match raw
    case ArrayObject(props, length) =>
      if k == LengthKey then
        if v.Num? && v.n >= 0 then Success(ArrayObject(Truncate(props, v.n), v.n)) else Failure(RangeError)
      else if k.Index? then
        Success(ArrayObject(props[k := v], if k.i < length then length else k.i + 1))
      else Success(ArrayObject(props[k := v], length))
    case PlainObject(props) => Success(PlainObject(props[k := v]))
    case Collection(props, members) => Success(Collection(props[k := v], members))
  }

  /** `Reflect.deleteProperty(target, key)`: an array's `length` cannot be
      deleted; any other key is removed (deleting an index leaves a hole). */
  function ReflectDelete(raw: Raw, k: Key): (r: (bool, Raw))
    ensures r.0 <==> !(raw.ArrayObject? && k == LengthKey)
    ensures r.0 ==> !HasOwn(r.1, k) && r.1 == raw.(props := raw.props - {k})
    ensures !r.0 ==> r.1 == raw
  {
    match raw
    case ArrayObject(props, length) =>
      if k == LengthKey then (false, raw) else (true, ArrayObject(props - {k}, length))
    case PlainObject(props) => (true, PlainObject(props - {k}))
    case Collection(props, members) => (true, Collection(props - {k}, members))
  }

  // ---------------------------------------------------------------- wrappers

  /** The two flags of `createReactive(obj, isShallow, isReadonly)`. */
  datatype Flavor = Flavor(shallow: bool, readonly: bool)

  const DeepMutable := Flavor(false, false)
  const ShallowMutable := Flavor(true, false)
  const DeepReadonly := Flavor(false, true)
  const ShallowReadonly := Flavor(true, true)

  /** A notification the handler passes to `trigger(target, key, type, newVal)`. */
  datatype Notify = Notify(key: Key, change: ChangeType, newVal: Value)

  /** What a write or delete reports, the raw target afterwards, and its
      notification if any. */
  datatype Outcome = Outcome(result: bool, raw: Raw, notify: Option<Notify>)

  // --------------------------------------------------------------------- get

  /** What a property read returns. */
  datatype GetResult =
    | RawTarget                      // `proxy.raw`: the unwrapped target
    | Instrumentation(name: string)  // a replaced array method
    | AsIs(value: Value)             // the value itself
    | WrapReactive(obj: ObjId)       // a nested object, through `reactive`
    | WrapReadonly(obj: ObjId)       // a nested object, through `readonly`

  /** A read's result and the key it passes to `track`, if any. */
  datatype Access = Access(result: GetResult, tracked: Option<Key>)

  /** The array methods the handler replaces. */
  const ArrayMethods: set<string> := {"includes", "indexOf", "lastIndexOf", "push", "pop", "shift", "unshift", "splice"}

  predicate IsArrayMethod(raw: Raw, k: Key) {
    raw.ArrayObject? && k.Named? && k.name in ArrayMethods
  }

  /** The general read path: track unless readonly or a symbol key, then
      return the value, wrapping a nested object unless shallow; a function
      is not an object to `typeof` and is returned as it is. */
  function GeneralRead(raw: Raw, k: Key, f: Flavor): Access {
    var tracked := if !f.readonly && !IsSymbolKey(k) then Some(k) else None;
    var v := ReflectGet(raw, k);
    var result :=
      if f.shallow || !v.Ref? then AsIs(v)
      else if f.readonly then WrapReadonly(v.id)
      else WrapReactive(v.id);
    Access(result, tracked)
  }

  /** The key the `get` trap as written passes to `track` for a read of `k`
      on an array or other target through a readonly or mutable proxy:
      nothing for `raw` and for a replaced array method, the iteration key
      for `size` whatever the flavour, and otherwise `k` itself unless the
      proxy is readonly or `k` is a symbol. */
  function TrackedAsWritten(isArray: bool, k: Key, readonly: bool): (r: Option<Key>)
    ensures k == RawKey ==> r.None?
    ensures k == SizeKey ==> r == Some(IterateKey)
    ensures k != SizeKey && readonly ==> r.None?
    ensures isArray && k.Named? && k.name in ArrayMethods ==> r.None?
    ensures k != RawKey && k != SizeKey && !(isArray && k.Named? && k.name in ArrayMethods) ==>
      (r == Some(k) <==> !readonly && !IsSymbolKey(k))
    ensures r.Some? ==> r.value == k || (k == SizeKey && r.value == IterateKey)
  {
    if k == RawKey then None
    else if k == SizeKey then Some(IterateKey)
    else if isArray && k.Named? && k.name in ArrayMethods then None
    else if !readonly && !IsSymbolKey(k) then Some(k)
    else None
  }

  /** The `get` trap as the source writes it: the `size` special case applies
      to every target, not only to collections. */
  function GetAsWritten(raw: Raw, k: Key, f: Flavor): (a: Access)
    ensures k == SizeKey ==> a == Access(AsIs(ReflectGet(raw, SizeKey)), Some(IterateKey))
    ensures a.tracked == TrackedAsWritten(raw.ArrayObject?, k, f.readonly)
  {
    if k == RawKey then Access(RawTarget, None)
    else if k == SizeKey then Access(AsIs(ReflectGet(raw, k)), Some(IterateKey))
    else if IsArrayMethod(raw, k) then Access(Instrumentation(k.name), None)
    else GeneralRead(raw, k, f)
  }

  /** The `get` trap with the `size` special case confined to collections,
      where `size` is a getter over the membership. */
  function Get(raw: Raw, k: Key, f: Flavor): (a: Access)
    ensures k == RawKey ==> a == Access(RawTarget, None)
    ensures raw.Collection? && k == SizeKey ==> a.tracked == Some(IterateKey)
    ensures IsArrayMethod(raw, k) ==> a == Access(Instrumentation(k.name), None)
    ensures k != RawKey && !(raw.Collection? && k == SizeKey) && !IsArrayMethod(raw, k) ==>
      && (a.tracked.Some? <==> !f.readonly && !IsSymbolKey(k))
      && (a.tracked.Some? ==> a.tracked.value == k)
      && (a.result.AsIs? ==> a.result.value == ReflectGet(raw, k))
      && (f.shallow ==> a.result == AsIs(ReflectGet(raw, k)))
      && (!ReflectGet(raw, k).Ref? ==> a.result == AsIs(ReflectGet(raw, k)))
      && (!f.shallow && ReflectGet(raw, k).Ref? ==>
            a.result == (if f.readonly then WrapReadonly(ReflectGet(raw, k).id) else WrapReactive(ReflectGet(raw, k).id)))
    ensures a.tracked.Some? ==> a.tracked.value == k || a.tracked.value == IterateKey
  {
    if k == SizeKey && !raw.Collection? then GeneralRead(raw, k, f)
    else GetAsWritten(raw, k, f)
  }

  // --------------------------------------------------------- has / ownKeys

  /** The `has` trap: `key in proxy` tracks (target, key), readonly or not. */
  function Has(raw: Raw, k: Key): (r: (bool, Key))
    ensures r.1 == k
    ensures r.0 <==> HasOwn(raw, k)
  {
    (HasOwn(raw, k), k)
  }

  /** The key enumeration tracks: an array's key list is governed by its
      length, any other target's by `ITERATE_KEY`. */
  function EnumerationKey(isArray: bool): Key {
    if isArray then LengthKey else IterateKey
  }

  /** The `ownKeys` trap: tracks the enumeration key and lists the own keys. */
  function OwnKeys(raw: Raw): (r: (set<Key>, Key))
    ensures forall k :: k in r.0 <==> HasOwn(raw, k)
    ensures r.1 == (if raw.ArrayObject? then LengthKey else IterateKey)
  {
    var keys := if raw.ArrayObject? then raw.props.Keys + {LengthKey} else raw.props.Keys;
    (keys, EnumerationKey(raw.ArrayObject?))
  }

  // ------------------------------------------------------ deleteProperty

  /** The `deleteProperty` trap. */
  function DeleteProperty(raw: Raw, k: Key, f: Flavor): (o: Outcome)
    ensures f.readonly ==> o == Outcome(true, raw, None)
    ensures !f.readonly ==> (o.result <==> !(raw.ArrayObject? && k == LengthKey))
    ensures !f.readonly && o.result ==> !HasOwn(o.raw, k)
    ensures !f.readonly ==> (o.notify.Some? <==> HasOwn(raw, k) && o.result)
    ensures o.notify.Some? ==> o.notify.value == Notify(k, Delete, Undefined)
    ensures !o.result ==> o.raw == raw
  {
    if f.readonly then Outcome(true, raw, None)
    else
      var hasKey := HasOwn(raw, k);
      var (ok, raw') := ReflectDelete(raw, k);
      Outcome(ok, raw', if ok && hasKey then Some(Notify(k, Delete, Undefined)) else None)
  }

  // --------------------------------------------------------------------- set

  /** `Number(key)` compared with an array's length: an index compares by
      value, any other key is `NaN` (never less), and a symbol cannot be
      converted at all. Off arrays, `SET` means an own property is replaced. */
  function WriteKind(raw: Raw, k: Key): (r: Result<ChangeType, JsError>)
    ensures r.Failure? <==> raw.ArrayObject? && IsSymbolKey(k)
    ensures r.Success? ==> r.value != Delete
    ensures r.Success? && !raw.ArrayObject? ==> (r.value == Set <==> HasOwn(raw, k))
    ensures r.Success? && raw.ArrayObject? ==> (r.value == Set <==> k.Index? && k.i < raw.length)
  {
    if raw.ArrayObject? then
      match k
      case Index(i) => if i < raw.length then Success(Set) else Success(Add)
      case Named(_) => Success(Add)
      case Member(_) => Success(Add)
      case _ => Failure(TypeError)
    else if HasOwn(raw, k) then Success(Set) else Success(Add)
  }

  /** The trigger guard `oldVal !== newVal && (oldVal === oldVal || newVal === newVal)`:
      it is plain inequality, under which `NaN` equals `NaN`. */
  predicate Changed(oldVal: Value, newVal: Value): (r: bool)
    ensures r <==> oldVal != newVal
  {
    !StrictEquals(oldVal, newVal) && (StrictEquals(oldVal, oldVal) || StrictEquals(newVal, newVal))
  }

  /** The `set` trap. `sameReceiver` is `target === receiver.raw`. */
  function SetProperty(raw: Raw, k: Key, v: Value, f: Flavor, sameReceiver: bool): (r: Result<Outcome, JsError>)
    ensures f.readonly ==> r == Success(Outcome(true, raw, None))
    ensures !f.readonly ==> (r.Failure? <==> WriteKind(raw, k).Failure? || ReflectSet(raw, k, v).Failure?)
    ensures !f.readonly && r.Success? ==>
      && r.value.result
      && r.value.raw == ReflectSet(raw, k, v).value
      && (r.value.notify.Some? <==> sameReceiver && Changed(ReflectGet(raw, k), v))
      && (r.value.notify.Some? ==> r.value.notify.value == Notify(k, WriteKind(raw, k).value, v))
  {
    if f.readonly then Success(Outcome(true, raw, None))
    else
      var oldVal := ReflectGet(raw, k);
      var kind :- WriteKind(raw, k);
      var raw' :- ReflectSet(raw, k, v);
      var fire := sameReceiver && Changed(oldVal, v);
      Success(Outcome(true, raw', if fire then Some(Notify(k, kind, v)) else None))
  }

  // ---------------------------------------------- collection instrumentations

  /** The key `trigger` receives for a collection element: a string element
      is the property key of that name, which for a canonical index string
      is `Index`; any other element is a key of its own. */
  function ElementKey(v: Value): (k: Key)
    ensures k.Named? ==> v == Str(k.name) && !IsIndexString(k.name)
    ensures k.Index? ==> v == Str(IndexString(k.i))
    ensures k.Member? ==> k.element == v && !v.Str?
    ensures !k.Symbol? && !k.IterateKey?
  {
    if v.Str? then
      match ParseIndex(v.s)
      case Some(n) => IndexStringOfParse(v.s); Index(n)
      case None => Named(v.s)
    else Member(v)
  }

  /** `add` and `delete` of the string for index `n` notify on the same key
      as a read of `n`: `s.add("0")` reaches an effect that ran `"0" in s`. */
  lemma ElementKeyOfIndexString(n: nat)
    ensures ElementKey(Str(IndexString(n))) == Index(n)
  {
    ParseIndexString(n);
  }

  /** `mutableInstrumentations.add`: on the raw collection; `ADD` only when the
      element was absent. Its result is the collection itself (reported as
      `true`); a target that is not a collection has no `has` method. */
  function CollectionAdd(raw: Raw, v: Value): (r: Result<Outcome, JsError>)
    ensures r.Failure? <==> !raw.Collection?
    ensures r.Success? ==>
      && r.value.raw == raw.(members := raw.members + {v})
      && (r.value.notify.Some? <==> v !in raw.members)
      && (r.value.notify.Some? ==> r.value.notify.value == Notify(ElementKey(v), Add, Undefined))
  {
    if !raw.Collection? then Failure(TypeError)
    else
      var hadKey := v in raw.members;
      Success(Outcome(true, raw.(members := raw.members + {v}), if !hadKey then Some(Notify(ElementKey(v), Add, Undefined)) else None))
  }

  /** `mutableInstrumentations.delete`: on the raw collection; reports whether
      the element was there, and `DELETE` only then. */
  function CollectionDelete(raw: Raw, v: Value): (r: Result<Outcome, JsError>)
    ensures r.Failure? <==> !raw.Collection?
    ensures r.Success? ==>
      && r.value.raw == raw.(members := raw.members - {v})
      && (r.value.result <==> v in raw.members)
      && (r.value.notify.Some? <==> v in raw.members)
      && (r.value.notify.Some? ==> r.value.notify.value == Notify(ElementKey(v), Delete, Undefined))
  {
    if !raw.Collection? then Failure(TypeError)
    else
      var hadKey := v in raw.members;
      Success(Outcome(hadKey, raw.(members := raw.members - {v}), if hadKey then Some(Notify(ElementKey(v), Delete, Undefined)) else None))
  }

  // ------------------------------------------- shouldTrack array instrumentations

  /** `push`/`pop`/`shift`/`unshift`/`splice` through the proxy: tracking is
      switched off, the original method runs (its internal reads, and any effect
      its writes run, are `inner`), then tracking is switched on. When the
      method throws, the switch-on is skipped. */
  function CallArrayMutator(s: State, inner: seq<Step>, throws: bool): (r: State)
    ensures r.shouldTrack == !throws
    ensures r.stack == s.stack
    ensures ActiveIsTop(s) ==> r.active == s.active
    ensures Consistent(s) ==> Consistent(r)
  {
    var during := ExecBody(s.(shouldTrack := false), inner);
    if throws then during else during.(shouldTrack := true)
  }

  // ---------------------------------------------------------- identity cache

  /** A created proxy: its target and flavor. */
  datatype ProxyRec = ProxyRec(target: ObjId, flavor: Flavor)

  /** Every proxy created so far (its identity is its position) and
      `reactiveMap`, raw target -> its deep mutable proxy. */
  datatype Proxies = Proxies(table: seq<ProxyRec>, cache: map<ObjId, nat>)

  /** Each cached proxy exists and is the deep mutable proxy of its key. */
  predicate WfProxies(p: Proxies) {
    forall o :: o in p.cache ==> p.cache[o] < |p.table| && p.table[p.cache[o]] == ProxyRec(o, DeepMutable)
  }

  /** `createReactive(obj, isShallow, isReadonly)`: a new proxy, distinct
      from every proxy made before and from every cached one. */
  function CreateReactive(p: Proxies, o: ObjId, f: Flavor): (r: (Proxies, nat))
    ensures Prefix(p.table, r.0.table) && |r.0.table| == |p.table| + 1
    ensures r.1 == |p.table| && r.0.table[r.1] == ProxyRec(o, f)
    ensures r.0.cache == p.cache
    ensures WfProxies(p) ==> WfProxies(r.0) && forall o': ObjId :: o' in p.cache ==> p.cache[o'] != r.1
  {
    (p.(table := p.table + [ProxyRec(o, f)]), |p.table|)
  }

  /** `reactive(obj)`: the cached deep mutable proxy, created and cached on
      first use. */
  function MakeReactive(p: Proxies, o: ObjId): (r: (Proxies, nat))
    requires WfProxies(p)
    ensures WfProxies(r.0)
    ensures r.1 < |r.0.table| && r.0.table[r.1] == ProxyRec(o, DeepMutable)
    ensures o in r.0.cache && r.0.cache[o] == r.1
    ensures o in p.cache ==> r == (p, p.cache[o])
    ensures o !in p.cache ==> r.1 == |p.table| && r.0.table == p.table + [ProxyRec(o, DeepMutable)]
    ensures |p.table| <= |r.0.table| && r.0.table[..|p.table|] == p.table
  {
    if o in p.cache then (p, p.cache[o])
    else
      var (p', id) := CreateReactive(p, o, DeepMutable);
      (p'.(cache := p'.cache[o := id]), id)
  }

  /** `shallowReactive`, `readonly` and `shallowReadonly`: always a new proxy,
      and the cache is left alone. */
  function MakeVariant(p: Proxies, o: ObjId, f: Flavor): (r: (Proxies, nat))
    requires f != DeepMutable
    requires WfProxies(p)
    ensures WfProxies(r.0)
    ensures r.1 == |p.table| && r.0.table == p.table + [ProxyRec(o, f)]
    ensures r.0.cache == p.cache
  {
    CreateReactive(p, o, f)
  }
}

=== FILE: reactive_store.dfy ===
/** The proxy handler composed with the dependency store: a read tracks through
    `track`, a write or delete notifies through `trigger`. */
module ReactiveStore {
  import opened Wrappers
  import opened Types
  import opened Effect
  import opened EffectProperties
  import opened Reactive

  /** A read through a proxy of flavor `f` over target `t`, through the
      `get` trap with its `size` case confined to collections (`Get`). */
  function ProxyRead(s: State, t: ObjId, raw: Raw, k: Key, f: Flavor): (r: (Access, State))
    ensures r.0 == Get(raw, k, f)
    ensures r.0.tracked.None? ==> r.1 == s
    ensures r.0.tracked.Some? && s.active.Some? && s.shouldTrack ==> s.active.value in Subscribers(r.1.store, t, r.0.tracked.value)
    ensures r.0.tracked.Some? ==> forall t': ObjId, k': Key :: (t', k') != (t, r.0.tracked.value) ==>
      Subscribers(r.1.store, t', k') == Subscribers(s.store, t', k')
    ensures forall t': ObjId, k': Key :: Subscribers(s.store, t', k') <= Subscribers(r.1.store, t', k')
    ensures forall e: EffectId :: Some(e) != s.active ==> DepsOf(r.1, e) == DepsOf(s, e)
    ensures r.1.active == s.active && r.1.stack == s.stack && r.1.shouldTrack == s.shouldTrack && r.1.runs == s.runs
    ensures Consistent(s) ==> Consistent(r.1)
  {
    var a := Get(raw, k, f);
    (a, if a.tracked.Some? then Track(s, t, a.tracked.value) else s)
  }

  /** The effects a notification selects, with their dispatch. */
  function Notified(s: State, reg: Registry, t: ObjId, raw: Raw, n: Option<Notify>): (plan: map<EffectId, Action>)
    ensures n.None? ==> plan == map[]
    ensures n.Some? ==> plan.Keys == Select(s, t, n.value.key, n.value.change, n.value.newVal, raw.ArrayObject?)
  {
    if n.None? then map[]
    else Trigger(s, reg, t, n.value.key, n.value.change, n.value.newVal, raw.ArrayObject?)
  }

  /** A write through a proxy: the outcome and the effects it sets off. */
  function ProxyWrite(s: State, reg: Registry, t: ObjId, raw: Raw, k: Key, v: Value, f: Flavor, sameReceiver: bool)
    : (r: Result<(Outcome, map<EffectId, Action>), JsError>)
    ensures f.readonly ==> r == Success((Outcome(true, raw, None), map[]))
    ensures r.Success? ==> r.value.1.Keys <= AllSubscribers(s.store, t)
    ensures r.Success? && s.active.Some? ==> s.active.value !in r.value.1
    ensures r.Success? && !sameReceiver ==> r.value.1 == map[]
  {
    var o :- SetProperty(raw, k, v, f, sameReceiver);
    Success((o, Notified(s, reg, t, raw, o.notify)))
  }

  /** A delete through a proxy: the outcome and the effects it sets off. */
  function ProxyDelete(s: State, reg: Registry, t: ObjId, raw: Raw, k: Key, f: Flavor)
    : (r: (Outcome, map<EffectId, Action>))
    ensures f.readonly ==> r == (Outcome(true, raw, None), map[])
    ensures !HasOwn(raw, k) ==> r.1 == map[]
    ensures r.1.Keys <= AllSubscribers(s.store, t)
  {
    var o := DeleteProperty(raw, k, f);
    (o, Notified(s, reg, t, raw, o.notify))
  }

  /** A read of a non-special key made while effect `e` runs, followed by a
      write of a different value through the same proxy while `e` is not
      running, selects `e`. For example `obs.foo = 2` after `obs.foo`
      was read as 1 re-runs the reader; writing 2 again selects nothing. */
  lemma ReadThenChangeSelectsReader(s: State, reg: Registry, t: ObjId, raw: Raw, k: Key, v: Value, other: Option<EffectId>)
    requires s.active.Some? && s.shouldTrack && other != s.active
    requires k != RawKey && !IsSymbolKey(k) && !IsArrayMethod(raw, k) && !(raw.Collection? && k == SizeKey)
    requires SetProperty(raw, k, v, DeepMutable, true).Success?
    ensures var s1 := ProxyRead(s, t, raw, k, DeepMutable).1.(active := other);
      var w := ProxyWrite(s1, reg, t, raw, k, v, DeepMutable, true);
      && w.Success?
      && (s.active.value in w.value.1 <==> ReflectGet(raw, k) != v)
  {
    var s1 := ProxyRead(s, t, raw, k, DeepMutable).1.(active := other);
    assert s.active.value in Subscribers(s1.store, t, k);
  }

  /** `key in proxy`: an effect that asked is selected when the key is added
      (which changes the answer to true) with a value other than the one a
      read of the missing key gives, `undefined` but for a collection's
      `size`; and when an own key is deleted (which changes it to false). */
  lemma HasReaderSeesAddAndDelete(s: State, reg: Registry, t: ObjId, raw: Raw, k: Key, v: Value, other: Option<EffectId>)
    requires s.active.Some? && s.shouldTrack && other != s.active
    ensures var s1 := Track(s, t, Has(raw, k).1).(active := other);
      var w := ProxyWrite(s1, reg, t, raw, k, v, DeepMutable, true);
      var d := ProxyDelete(s1, reg, t, raw, k, DeepMutable);
      && (!Has(raw, k).0 && v != ReflectGet(raw, k) && w.Success? ==>
            Has(w.value.0.raw, k).0 && s.active.value in w.value.1)
      && (Has(raw, k).0 && d.0.result ==> !Has(d.0.raw, k).0 && s.active.value in d.1)
  {
    var s1 := Track(s, t, Has(raw, k).1).(active := other);
    assert s.active.value in Subscribers(s1.store, t, k);
    if !Has(raw, k).0 && ProxyWrite(s1, reg, t, raw, k, v, DeepMutable, true).Success? {
      assert HasOwn(ReflectSet(raw, k, v).value, k);
    }
  }

  /** Enumeration: an effect that enumerated a plain object is selected when
      a new key is written to it with a value other than `undefined` (a new
      key read as `undefined` before, so the guard sees no change) or an
      existing key is deleted. */
  lemma EnumerationSeesAddAndDelete(s: State, reg: Registry, t: ObjId, raw: Raw, k: Key, v: Value, other: Option<EffectId>)
    requires raw.PlainObject? && s.active.Some? && s.shouldTrack && other != s.active
    ensures var s1 := Track(s, t, OwnKeys(raw).1).(active := other);
      && (!HasOwn(raw, k) && v != Undefined ==> s.active.value in ProxyWrite(s1, reg, t, raw, k, v, DeepMutable, true).value.1)
      && (HasOwn(raw, k) ==> s.active.value in ProxyDelete(s1, reg, t, raw, k, DeepMutable).1)
  {
    var s1 := Track(s, t, OwnKeys(raw).1).(active := other);
    assert s.active.value in Subscribers(s1.store, t, IterateKey);
  }

  /** Arrays: an effect that read `length` (or enumerated the array) is
      selected by a write at or beyond the length, which the handler
      classifies as `ADD`. */
  lemma AppendSelectsLengthReaders(s: State, reg: Registry, t: ObjId, raw: Raw, i: nat, v: Value, other: Option<EffectId>)
    requires raw.ArrayObject? && i >= raw.length && s.active.Some? && s.shouldTrack && other != s.active
    requires ReflectGet(raw, Index(i)) != v
    ensures var s1 := Track(s, t, LengthKey).(active := other);
      var w := ProxyWrite(s1, reg, t, raw, Index(i), v, DeepMutable, true);
      && w.Success?
      && w.value.0.notify == Some(Notify(Index(i), Add, v))
      && s.active.value in w.value.1
  {
    var s1 := Track(s, t, LengthKey).(active := other);
    assert s.active.value in Subscribers(s1.store, t, LengthKey);
  }

  /** Arrays: truncating `length` drops exactly the indices at or beyond the
      new length, and selects every subscriber of a dropped index (other than
      the running effect). The write is classified `ADD`, as `Number('length')`
      is `NaN`. */
  lemma TruncationSelectsDroppedIndices(s: State, reg: Registry, t: ObjId, raw: Raw, n: nat)
    requires raw.ArrayObject? && WfRaw(raw) && n < raw.length
    ensures var w := ProxyWrite(s, reg, t, raw, LengthKey, Num(n), DeepMutable, true);
      && w.Success?
      && w.value.0.raw.length == n
      && w.value.0.notify == Some(Notify(LengthKey, Add, Num(n)))
      && (forall k :: k in raw.props ==> (k !in w.value.0.raw.props <==> k.Index? && k.i >= n))
      && (forall k, e :: k in raw.props && k !in w.value.0.raw.props && e in Subscribers(s.store, t, k) && Some(e) != s.active
            ==> e in w.value.1)
  {
  }

  /** The `SET`/`ADD` decision agrees with what the write does: on a plain
      object or collection `ADD` means the key was not an own property, and on
      an array an index write is `ADD` exactly when it grows the length. */
  lemma ClassificationMatchesWrite(raw: Raw, k: Key, v: Value)
    requires WfRaw(raw) && WriteKind(raw, k).Success? && ReflectSet(raw, k, v).Success?
    ensures var after := ReflectSet(raw, k, v).value;
      && (!raw.ArrayObject? ==> (WriteKind(raw, k).value == Add <==> !HasOwn(raw, k)) && HasOwn(after, k))
      && (raw.ArrayObject? && k.Index? ==>
            (WriteKind(raw, k).value == Add <==> after.length > raw.length) && HasOwn(after, k))
  {
  }

  /** Adding a key whose value is `undefined` notifies nobody, not even the
      effects that enumerated the object. */
  lemma AddingUndefinedIsSilent(s: State, reg: Registry, t: ObjId, raw: Raw, k: Key)
    requires raw.PlainObject? && !HasOwn(raw, k)
    ensures var w := ProxyWrite(s, reg, t, raw, k, Undefined, DeepMutable, true);
      w.Success? && HasOwn(w.value.0.raw, k) && w.value.1 == map[]
  {
  }

  /** Readonly denial: writes and deletes through a readonly proxy report
      success, leave the target as it is and select nothing. */
  lemma ReadonlyDenies(s: State, reg: Registry, t: ObjId, raw: Raw, k: Key, v: Value, shallow: bool, sameReceiver: bool)
    ensures ProxyWrite(s, reg, t, raw, k, v, Flavor(shallow, true), sameReceiver) == Success((Outcome(true, raw, None), map[]))
    ensures ProxyDelete(s, reg, t, raw, k, Flavor(shallow, true)) == (Outcome(true, raw, None), map[])
  {
  }

  /** A readonly proxy never tracks a property read; only `size` on a
      collection still tracks the iteration key. */
  lemma ReadonlyReadsDoNotTrack(s: State, t: ObjId, raw: Raw, k: Key, shallow: bool)
    requires !(raw.Collection? && k == SizeKey)
    ensures ProxyRead(s, t, raw, k, Flavor(shallow, true)).1 == s
  {
  }

  /** Adding an absent element and deleting it again restores the membership;
      both steps notify, each exactly once. */
  lemma AddThenDeleteRestores(raw: Raw, v: Value)
    requires raw.Collection? && v !in raw.members
    ensures var a := CollectionAdd(raw, v).value;
      var d := CollectionDelete(a.raw, v).value;
      && d.raw == raw
      && a.notify == Some(Notify(ElementKey(v), Add, Undefined))
      && d.notify == Some(Notify(ElementKey(v), Delete, Undefined))
      && d.result
  {
  }

  /** `size` readers of a collection are selected by an `add` of a new element
      and by a `delete` of a present one. */
  lemma SizeReadersSeeMembershipChange(s: State, reg: Registry, t: ObjId, raw: Raw, v: Value, other: Option<EffectId>)
    requires raw.Collection? && s.active.Some? && s.shouldTrack && other != s.active
    ensures var s1 := ProxyRead(s, t, raw, SizeKey, DeepMutable).1.(active := other);
      && (v !in raw.members ==> s.active.value in Notified(s1, reg, t, raw, CollectionAdd(raw, v).value.notify))
      && (v in raw.members ==> s.active.value in Notified(s1, reg, t, raw, CollectionDelete(raw, v).value.notify))
  {
    var s1 := ProxyRead(s, t, raw, SizeKey, DeepMutable).1.(active := other);
    assert s.active.value in Subscribers(s1.store, t, IterateKey);
  }

  /** An array mutator whose own reads are `inner` records no dependency, and
      leaves tracking switched on afterwards, whatever it was before. */
  lemma ArrayMutatorRecordsNothing(s: State, inner: seq<Step>)
    requires Flat(inner)
    ensures var r := CallArrayMutator(s, inner, false);
      r.store == s.store && r.deps == s.deps && r.shouldTrack
  {
    ExecUntracked(s.(shouldTrack := false), inner);
  }

  /** A mutator that throws leaves tracking switched off, so a later read
      records nothing. */
  lemma ThrowingMutatorDisablesTracking(s: State, inner: seq<Step>, t: ObjId, k: Key)
    ensures var r := CallArrayMutator(s, inner, true);
      !r.shouldTrack && Track(r, t, k) == r
  {
  }

  /** `reactive(x)` twice gives the same proxy and creates nothing new. */
  lemma ReactiveIsCached(p: Proxies, o: ObjId)
    requires WfProxies(p)
    ensures var (p1, id1) := MakeReactive(p, o);
      MakeReactive(p1, o) == (p1, id1)
  {
  }

  /** The uncached variants give a new proxy on every call. */
  lemma VariantsAreFresh(p: Proxies, o: ObjId, f: Flavor)
    requires WfProxies(p) && f != DeepMutable
    ensures var (p1, id1) := MakeVariant(p, o, f);
      var (p2, id2) := MakeVariant(p1, o, f);
      id1 != id2 && p2.table[id1] == p2.table[id2] == ProxyRec(o, f)
  {
  }
}

/** The `size` read as the source writes it, on a plain object. */
module SizeRead {
  import opened Wrappers
  import opened Types
  import opened Effect
  import opened Reactive
  import opened ReactiveStore

  const Target: ObjId := 0
  const Reader: EffectId := 1
  const Before: Raw := PlainObject(map[SizeKey := Num(1)])

  /** The source's handler: reading `obj.size` on a plain object tracks
      `ITERATE_KEY`, and the later `obj.size = 2` is a `SET` on `size`, so the
      reader is not selected although the value changed. */
  lemma SizeOnPlainObjectMissesUpdate()
    ensures var s := Initial.(active := Some(Reader), stack := [Reader]);
      var s1 := Track(s, Target, GetAsWritten(Before, SizeKey, DeepMutable).tracked.value).(active := None, stack := []);
      var w := SetProperty(Before, SizeKey, Num(2), DeepMutable, true);
      && w.Success?
      && w.value.notify == Some(Notify(SizeKey, Set, Num(2)))
      && ReflectGet(w.value.raw, SizeKey) != ReflectGet(Before, SizeKey)
      && Reader !in Select(s1, Target, SizeKey, Set, Num(2), false)
  {
    var s := Initial.(active := Some(Reader), stack := [Reader]);
    var s1 := Track(s, Target, IterateKey).(active := None, stack := []);
    assert Subscribers(s1.store, Target, SizeKey) == {};
  }

  /** With the `size` case confined to collections, the same read tracks
      `size` and the same write selects the reader. */
  lemma SizeOnPlainObjectSeesUpdate()
    ensures var s := Initial.(active := Some(Reader), stack := [Reader]);
      var s1 := ProxyRead(s, Target, Before, SizeKey, DeepMutable).1.(active := None, stack := []);
      Reader in ProxyWrite(s1, map[], Target, Before, SizeKey, Num(2), DeepMutable, true).value.1
  {
    var s := Initial.(active := Some(Reader), stack := [Reader]);
    ReadThenChangeSelectsReader(s, map[], Target, Before, SizeKey, Num(2), None);
  }
}

/** Calling `add` or `delete` on a reactive Set-like collection. */
module CollectionCall {
  import opened Wrappers
  import opened Types
  import opened Effect
  import opened Reactive
  import opened ReactiveStore

  /** The two collection methods the handler has instrumentations for. */
  datatype Method = AddMethod | DeleteMethod

  function MethodKey(m: Method): Key {
    if m == AddMethod then Named("add") else Named("delete")
  }

  /** `proxy.add(v)` / `proxy.delete(v)` as the handler is written. The `get`
      trap has no branch for collection methods, so reading the method goes
      the general way: it tracks the method's name unless the proxy is
      readonly, and returns the native method of `Set.prototype` (a function,
      so it is not wrapped). The call then runs that method with the proxy as
      `this`; a proxy has no internal set slot, so the method throws a
      `TypeError` before the membership is touched and nothing is triggered.
      An own property of that name is no function either, so the call throws
      the same way. */
  function CallAsWritten(s: State, t: ObjId, raw: Raw, m: Method, v: Value, f: Flavor): (r: (Result<Outcome, JsError>, State))
    ensures r.0 == Failure(TypeError)
    ensures f.readonly ==> r.1 == s
    ensures !f.readonly && s.active.Some? && s.shouldTrack ==> s.active.value in Subscribers(r.1.store, t, MethodKey(m))
    ensures forall t': ObjId, k': Key :: (t', k') != (t, MethodKey(m)) ==> Subscribers(r.1.store, t', k') == Subscribers(s.store, t', k')
  {
    var (_, s1) := ProxyRead(s, t, raw, MethodKey(m), f);
    (Failure(TypeError), s1)
  }

  /** The same call with the `get` trap dispatching `add` and `delete` to
      `mutableInstrumentations`: the instrumentation reads `raw`, which tracks
      nothing, works on the raw collection, and passes its notification to
      `trigger`. */
  function Call(s: State, reg: Registry, t: ObjId, raw: Raw, m: Method, v: Value): (r: (Result<Outcome, JsError>, map<EffectId, Action>))
    ensures r.0.Success? <==> raw.Collection?
    ensures r.0.Success? && m == AddMethod ==> r.0.value.raw == raw.(members := raw.members + {v})
    ensures r.0.Success? && m == DeleteMethod ==> r.0.value.raw == raw.(members := raw.members - {v})
    ensures r.0.Failure? ==> r.1 == map[]
    ensures r.1.Keys <= AllSubscribers(s.store, t)
  {
    var o := if m == AddMethod then CollectionAdd(raw, v) else CollectionDelete(raw, v);
    if o.Failure? then (o, map[]) else (o, Notified(s, reg, t, raw, o.value.notify))
  }

  const Target: ObjId := 0
  const Reader: EffectId := 1
  const Empty: Raw := Collection(map[], {})

  /** As written, `s = reactive(new Set()); s.add(1)` throws a `TypeError`:
      an effect that reads `s.size` is never re-run, and the effect that calls
      `add` subscribes to the key `add`. */
  lemma AddOnReactiveSetThrows()
    ensures var s := Initial.(active := Some(Reader), stack := [Reader]);
      var (r, s1) := CallAsWritten(s, Target, Empty, AddMethod, Num(1), DeepMutable);
      && r == Failure(TypeError)
      && Reader in Subscribers(s1.store, Target, Named("add"))
      && Subscribers(s1.store, Target, IterateKey) == {}
  {
  }

  /** With the dispatch in place, the same call adds the element and selects
      an effect that read `size`. */
  lemma AddOnReactiveSetReachesSizeReaders()
    ensures var s := Initial.(active := Some(Reader), stack := [Reader]);
      var s1 := ProxyRead(s, Target, Empty, SizeKey, DeepMutable).1.(active := None, stack := []);
      var (r, plan) := Call(s1, map[], Target, Empty, AddMethod, Num(1));
      && r.Success? && r.value.raw.members == {Num(1)}
      && Reader in plan
  {
    var s := Initial.(active := Some(Reader), stack := [Reader]);
    SizeReadersSeeMembershipChange(s, map[], Target, Empty, Num(1), None);
  }
}

=== FILE: types.dfy ===
/** The shared vocabulary of the runtime: identities, property keys, JavaScript
    values, and the process-wide tracking state (`bucket`, `activeEffect`,
    `effectStack` and the `shouldTrack` switch of the store module). */
module Types {
  import opened Wrappers

  /** Identity of a raw target object (or of a computed's accessor object). */
  type ObjId = nat

  /** Identity of an effect function (`effectFn`). */
  type EffectId = nat

  /** A key of the dependency store. Array index keys are naturals, and
      `Index(i)` is the only spelling of the canonical index string for `i`:
      `Named` never holds such a string;
      `IterateKey` is the distinguished `ITERATE_KEY` symbol; other symbols are
      `Symbol(id)`. A non-string element of a Set-like collection is used as a
      key of its own (`Member`) when `add`/`delete` trigger on it. */
  datatype Key = Named(name: string) | Index(i: nat) | Symbol(id: nat) | IterateKey | Member(element: Value)

  const LengthKey: Key := Named("length")
  const ValueKey: Key := Named("value")
  const RawKey: Key := Named("raw")
  const SizeKey: Key := Named("size")

  // ------------------------------------------------- canonical index strings

  predicate IsDigit(c: char) {
    '0' <= c <= '9'
  }

  function DigitValue(c: char): (d: nat)
    requires IsDigit(c)
    ensures d < 10
  {
    c as int - '0' as int
  }

  function DigitChar(d: nat): (c: char)
    requires d < 10
    ensures IsDigit(c) && DigitValue(c) == d
  {
    ('0' as int + d) as char
  }

  /** `String(n)`: the decimal digits of `n`, with no leading zero. */
  function IndexString(n: nat): (s: string)
    ensures |s| > 0
    ensures forall i :: 0 <= i < |s| ==> IsDigit(s[i])
    ensures |s| > 1 ==> s[0] != '0'
  {
    if n < 10 then [DigitChar(n)] else IndexString(n / 10) + [DigitChar(n % 10)]
  }

  /** A canonical index string: decimal digits with no leading zero. */
  predicate IsIndexString(s: string) {
    && |s| > 0
    && (forall i :: 0 <= i < |s| ==> IsDigit(s[i]))
    && (|s| > 1 ==> s[0] != '0')
  }

  /** The number a string of decimal digits denotes. */
  function DigitsValue(s: string): nat
    requires forall i :: 0 <= i < |s| ==> IsDigit(s[i])
  {
    if |s| == 0 then 0
    else DigitsValue(s[..|s| - 1]) * 10 + DigitValue(s[|s| - 1])
  }

  /** The index a property-key string names, if it is a canonical one. */
  function ParseIndex(s: string): (r: Option<nat>)
    ensures r.Some? <==> IsIndexString(s)
  {
    if IsIndexString(s) then Some(DigitsValue(s)) else None
  }

  /** Printing an index and parsing it back gives the index. */
  lemma {:induction false} ParseIndexString(n: nat)
    ensures ParseIndex(IndexString(n)) == Some(n)
  {
    var s := IndexString(n);
    if n >= 10 {
      ParseIndexString(n / 10);
      assert s[..|s| - 1] == IndexString(n / 10);
      assert s[|s| - 1] == DigitChar(n % 10);
    } else {
      assert s[..0] == [];
    }
    assert DigitsValue(s) == n;
  }

  /** A canonical index string is the printed form of the index it parses
      to: no other string names the same index. */
  lemma {:induction false} IndexStringOfParse(s: string)
    requires IsIndexString(s)
    ensures IndexString(DigitsValue(s)) == s
    decreases |s|
  {
    if |s| > 1 {
      var p := s[..|s| - 1];
      assert forall i :: 0 <= i < |p| ==> p[i] == s[i];
      IndexStringOfParse(p);
      LeadingDigitPositive(p);
      var d := DigitValue(s[|s| - 1]);
      var v := DigitsValue(s);
      assert v == DigitsValue(p) * 10 + d;
      assert v / 10 == DigitsValue(p) && v % 10 == d;
      assert s == p + [s[|s| - 1]];
    }
  }

  lemma {:induction false} LeadingDigitPositive(s: string)
    requires |s| > 0 && (forall i :: 0 <= i < |s| ==> IsDigit(s[i])) && s[0] != '0'
    ensures DigitsValue(s) >= 1
    decreases |s|
  {
    if |s| > 1 {
      var p := s[..|s| - 1];
      assert p[0] == s[0];
      LeadingDigitPositive(p);
    }
  }

  /** `typeof key === 'symbol'` */
  predicate IsSymbolKey(k: Key) {
    k.Symbol? || k.IterateKey?
  }

  /** JavaScript values, as far as the runtime distinguishes them. Numbers are
      integers plus `NaN`; `Ref` is a reference to an object that is not a
      function (`typeof` gives `'object'`), `Fn` a reference to a function
      (`typeof` gives `'function'`). */
  datatype Value = Undefined | Null | Bool(b: bool) | Num(n: int) | NaN | Str(s: string) | Ref(id: ObjId) | Fn(fid: ObjId)

  /** JavaScript `===`: structural on primitives, identity on objects, and
      `NaN` is not equal to itself. */
  predicate StrictEquals(a: Value, b: Value) {
    a == b && !a.NaN?
  }

  /** The three change classifications passed to `trigger`. */
  datatype ChangeType = Set | Add | Delete

  /** A dependency set is identified by the (target, key) pair under which it
      is stored: the store never replaces or removes a created set. */
  type Dep = (ObjId, Key)

  /** `bucket`: target -> key -> subscribed effects. */
  type Store = map<ObjId, map<Key, set<EffectId>>>

  /** The process-wide state: the store, every effect's `deps` back-reference
      list, `activeEffect`, `effectStack` and `shouldTrack`; `runs` records
      each call of an effect function, in the order they start. */
  datatype State = State(
    store: Store,
    deps: map<EffectId, seq<Dep>>,
    active: Option<EffectId>,
    stack: seq<EffectId>,
    shouldTrack: bool,
    runs: seq<EffectId>)

  /** The subscribers of (t, k); a missing map or set reads as empty. */
  function Subscribers(store: Store, t: ObjId, k: Key): set<EffectId> {
    if t in store && k in store[t] then store[t][k] else {}
  }

  /** An effect's `deps` list; an effect never seen has an empty one. */
  function DepsOf(s: State, e: EffectId): seq<Dep> {
    DepsIn(s.deps, e)
  }

  function DepsIn(deps: map<EffectId, seq<Dep>>, e: EffectId): seq<Dep> {
    if e in deps then deps[e] else []
  }

  /** `effectStack[effectStack.length - 1]` */
  function Top(stack: seq<EffectId>): Option<EffectId> {
    if |stack| == 0 then None else Some(stack[|stack| - 1])
  }

  /** `b` extends `a`: `a` is a prefix of `b`. */
  predicate Prefix<T(==)>(a: seq<T>, b: seq<T>) {
    |a| <= |b| && b[..|a|] == a
  }

  lemma PrefixTrans<T>(a: seq<T>, b: seq<T>, c: seq<T>)
    requires Prefix(a, b) && Prefix(b, c)
    ensures Prefix(a, c)
  {
    assert c[..|a|] == c[..|b|][..|a|];
  }

  /** The initial state: nothing tracked, no effect running, tracking enabled. */
  const Initial: State := State(map[], map[], None, [], true, [])

  /** `activeEffect` is the top of `effectStack`. */
  predicate ActiveIsTop(s: State) {
    s.active == Top(s.stack)
  }

  /** Every membership is backed by the effect's `deps` list, which is what
      lets cleanup find and remove it. */
  ghost predicate Consistent(s: State) {
    Linked(s.store, s.deps)
  }

  ghost predicate Linked(store: Store, deps: map<EffectId, seq<Dep>>) {
    forall t: ObjId, k: Key, e: EffectId :: e in Subscribers(store, t, k) ==> (t, k) in DepsIn(deps, e)
  }

  /** The effect belongs to no dependency set at all. */
  ghost predicate Detached(store: Store, e: EffectId) {
    forall t: ObjId, k: Key :: e !in Subscribers(store, t, k)
  }
}

=== FILE: watch.dfy ===
/** `watch(source, cb, options)`: the cycle-safe `traverse`, the getter built
    from the source, the `job` that calls the callback with (new, old), the
    scheduler's flush decision, setup with or without `immediate`, and `stop`. */
module Watch {
  import opened Wrappers
  import opened Types
  import opened Cleanup
  import opened Effect
  import opened EffectProperties
  import opened Reactive

  // --------------------------------------------------------------- traverse

  /** What an object of the heap is: a raw object, or a proxy over the raw
      target `target`; a readonly proxy's `get` trap does not track. */
  datatype NodeKind = RawObject | ProxyOf(target: ObjId, readonly: bool)

  /** An object as `for..in` sees it: whether it is an array, what kind of
      object it is, and its enumerable string keys with the values a read of
      each returns (through a proxy, the values its `get` trap returns), in
      enumeration order. */
  datatype Node = Node(isArray: bool, kind: NodeKind, props: seq<(Key, Value)>)

  /** The heap as `traverse` sees it, by JavaScript identity: a proxy is an
      object of its own, distinct from its target. An id outside the graph is
      a reference the heap does not hold; the walk leaves it alone. */
  type Graph = map<ObjId, Node>

  /** The traversal's `seen` set and the pairs it has tracked, in order. */
  datatype Walk = Walk(seen: set<ObjId>, tracked: seq<Dep>)

  /** `for (k in value)` on a proxy runs its `ownKeys` trap, which tracks the
      target's enumeration key, readonly or not; on a raw object it tracks
      nothing. */
  function EnumReads(n: Node): seq<Dep> {
    if n.kind.ProxyOf? then [(n.kind.target, EnumerationKey(n.isArray))] else []
  }

  /** The pair `value[k]` tracks, if any: through a proxy, what the `get`
      trap as written tracks on the proxy's target (nothing for `raw`, the
      iteration key for `size` even when readonly, otherwise the key unless
      readonly or a symbol); through a raw object, nothing. */
  function KeyRead(n: Node, k: Key): (r: Option<Dep>)
    ensures r.Some? ==> n.kind.ProxyOf? && r.value.0 == n.kind.target
    ensures r.Some? ==> r.value.1 == k || (k == SizeKey && r.value.1 == IterateKey)
    ensures n.kind.ProxyOf? && k == SizeKey ==> r == Some((n.kind.target, IterateKey))
    ensures k == RawKey ==> r.None?
  {
    if !n.kind.ProxyOf? then None
    else match TrackedAsWritten(n.isArray, k, n.kind.readonly)
      case None => None
      case Some(tk) => Some((n.kind.target, tk))
  }

  /** `KeyRead` as a sequence of at most one pair. */
  function KeyReads(n: Node, k: Key): seq<Dep> {
    if KeyRead(n, k).Some? then [KeyRead(n, k).value] else []
  }

  /** What reading each of `props` through node `n` tracks, in order. */
  function PropReads(n: Node, props: seq<(Key, Value)>): seq<Dep> {
    if |props| == 0 then [] else KeyReads(n, props[0].0) + PropReads(n, props[1..])
  }

  /** `d` is a pair that visiting object `x` tracks: its enumeration, or what
      the read of one of its keys tracks. A raw object has none. */
  ghost predicate ReadOf(g: Graph, x: ObjId, d: Dep) {
    x in g && (d in EnumReads(g[x]) || exists j :: 0 <= j < |g[x].props| && KeyRead(g[x], g[x].props[j].0) == Some(d))
  }

  /** Every pair of `after` is in `before`, or is tracked by visiting an
      object first seen between `seenBefore` and `seenAfter`. */
  ghost predicate OnlyReads(g: Graph, seenBefore: set<ObjId>, seenAfter: set<ObjId>, before: seq<Dep>, after: seq<Dep>) {
    forall d :: d in after ==> d in before || exists x :: x in seenAfter && x !in seenBefore && ReadOf(g, x, d)
  }

  /** The reads of `props` are exactly the pairs their key reads track. */
  lemma {:induction false} PropReadsMembers(n: Node, props: seq<(Key, Value)>, d: Dep)
    ensures d in PropReads(n, props) <==> exists j :: 0 <= j < |props| && KeyRead(n, props[j].0) == Some(d)
    decreases |props|
  {
    if |props| > 0 {
      PropReadsMembers(n, props[1..], d);
      if d in PropReads(n, props[1..]) {
        var j :| 0 <= j < |props[1..]| && KeyRead(n, props[1..][j].0) == Some(d);
        assert KeyRead(n, props[j + 1].0) == Some(d);
      }
      if exists j :: 0 <= j < |props| && KeyRead(n, props[j].0) == Some(d) {
        var j :| 0 <= j < |props| && KeyRead(n, props[j].0) == Some(d);
        if j > 0 {
          assert props[1..][j - 1] == props[j];
        }
      }
    }
  }

  /** No tracked pair names `raw` or `size`: the trap as written tracks
      neither key on any target. */
  predicate TrapKeysOnly(ds: seq<Dep>) {
    forall d :: d in ds ==> d.1 != RawKey && d.1 != SizeKey
  }

  /** A value is an object of the graph that has been seen. */
  predicate ChildSeen(g: Graph, v: Value, seen: set<ObjId>) {
    v.Ref? && v.id in g ==> v.id in seen
  }

  /** Every object first seen between `before` and `after` had all its
      children seen as well. */
  ghost predicate Closed(g: Graph, before: set<ObjId>, after: set<ObjId>) {
    forall x :: x in after && x !in before ==>
      x in g && forall j :: 0 <= j < |g[x].props| ==> ChildSeen(g, g[x].props[j].1, after)
  }

  /** Every object first seen between `before` and `after` was enumerated and
      had each of its keys read: what those reads track is in `tracked`. */
  ghost predicate Recorded(g: Graph, before: set<ObjId>, after: set<ObjId>, tracked: seq<Dep>) {
    forall x :: x in after && x !in before ==>
      && x in g
      && (g[x].kind.ProxyOf? ==> (g[x].kind.target, EnumerationKey(g[x].isArray)) in tracked)
      && forall j :: 0 <= j < |g[x].props| && KeyRead(g[x], g[x].props[j].0).Some? ==>
           KeyRead(g[x], g[x].props[j].0).value in tracked
  }

  lemma SubsetCard(a: set<ObjId>, b: set<ObjId>)
    requires a <= b
    ensures |a| <= |b|
    ensures a < b ==> |a| < |b|
  {
    assert b == a + (b - a);
  }

  lemma ClosedTrans(g: Graph, a: set<ObjId>, b: set<ObjId>, c: set<ObjId>)
    requires a <= b <= c && Closed(g, a, b) && Closed(g, b, c)
    ensures Closed(g, a, c)
  {
  }

  lemma RecordedTrans(g: Graph, a: set<ObjId>, b: set<ObjId>, c: set<ObjId>, mid: seq<Dep>, last: seq<Dep>)
    requires a <= b <= c && Recorded(g, a, b, mid) && Recorded(g, b, c, last)
    requires forall d :: d in mid ==> d in last
    ensures Recorded(g, a, c, last)
  {
  }

  /** `traverse(value, seen)`: a primitive, `null` or seen object is left
      alone; otherwise the object is added to `seen` before its children are
      visited, which is what makes the walk end on a cyclic graph. Raw objects
      are walked like proxies; only the reads through a proxy track. */
  function TraverseValue(g: Graph, v: Value, w: Walk): (r: Walk)
    ensures w.seen <= r.seen <= w.seen + g.Keys
    ensures Prefix(w.tracked, r.tracked)
    ensures ChildSeen(g, v, r.seen)
    ensures Closed(g, w.seen, r.seen)
    ensures Recorded(g, w.seen, r.seen, r.tracked)
    ensures TrapKeysOnly(w.tracked) ==> TrapKeysOnly(r.tracked)
    ensures OnlyReads(g, w.seen, r.seen, w.tracked, r.tracked)
    ensures !v.Ref? || v.id !in g || v.id in w.seen ==> r == w
    decreases |g.Keys - w.seen|, 0, 0
  {
    if !v.Ref? || v.id !in g || v.id in w.seen then w
    else
      var x := v.id;
      var w1 := Walk(w.seen + {x}, w.tracked + EnumReads(g[x]));
      assert g.Keys - w1.seen < g.Keys - w.seen;
      SubsetCard(g.Keys - w1.seen, g.Keys - w.seen);
      var r := TraverseProps(g, x, g[x].props, w1);
      assert g[x].kind.ProxyOf? ==> (g[x].kind.target, EnumerationKey(g[x].isArray)) in r.tracked by {
        if g[x].kind.ProxyOf? {
          assert r.tracked[..|w1.tracked|] == w1.tracked;
          assert r.tracked[|w.tracked|] == w1.tracked[|w.tracked|];
        }
      }
      PrefixTrans(w.tracked, w1.tracked, r.tracked);
      ValueOnly(g, x, w, w1, r);
      r
  }

  /** The `for (const k in value)` loop over object `x`: read `value[k]`, then
      traverse it. */
  function TraverseProps(g: Graph, x: ObjId, props: seq<(Key, Value)>, w: Walk): (r: Walk)
    requires x in g
    ensures w.seen <= r.seen <= w.seen + g.Keys
    ensures Prefix(w.tracked, r.tracked)
    ensures forall j :: 0 <= j < |props| ==> ChildSeen(g, props[j].1, r.seen)
    ensures forall j :: 0 <= j < |props| && KeyRead(g[x], props[j].0).Some? ==> KeyRead(g[x], props[j].0).value in r.tracked
    ensures Closed(g, w.seen, r.seen)
    ensures Recorded(g, w.seen, r.seen, r.tracked)
    ensures TrapKeysOnly(w.tracked) ==> TrapKeysOnly(r.tracked)
    ensures OnlyReads(g, w.seen, r.seen, w.tracked + PropReads(g[x], props), r.tracked)
    decreases |g.Keys - w.seen|, 1, |props|
  {
    if |props| == 0 then
      assert w.tracked + PropReads(g[x], props) == w.tracked;
      w
    else
      var w0 := w.(tracked := w.tracked + KeyReads(g[x], props[0].0));
      var w1 := TraverseValue(g, props[0].1, w0);
      SubsetCard(g.Keys - w1.seen, g.Keys - w.seen);
      var r := TraverseProps(g, x, props[1..], w1);
      PropsStep(g, x, props, w, w0, w1, r);
      PropsOnly(g, x, props, w, w0, w1, r);
      r
  }

  /** The step of `TraverseProps`: the first key read and its value walked
      (`w0`, `w1`), then the rest (`r`). */
  lemma PropsStep(g: Graph, x: ObjId, props: seq<(Key, Value)>, w: Walk, w0: Walk, w1: Walk, r: Walk)
    requires x in g && |props| > 0 && w0 == w.(tracked := w.tracked + KeyReads(g[x], props[0].0))
    requires w0.seen <= w1.seen <= w0.seen + g.Keys && Prefix(w0.tracked, w1.tracked) && ChildSeen(g, props[0].1, w1.seen)
    requires Closed(g, w0.seen, w1.seen) && Recorded(g, w0.seen, w1.seen, w1.tracked)
    requires w1.seen <= r.seen <= w1.seen + g.Keys && Prefix(w1.tracked, r.tracked)
    requires forall j :: 0 <= j < |props[1..]| ==> ChildSeen(g, props[1..][j].1, r.seen)
    requires forall j :: 0 <= j < |props[1..]| && KeyRead(g[x], props[1..][j].0).Some? ==> KeyRead(g[x], props[1..][j].0).value in r.tracked
    requires Closed(g, w1.seen, r.seen) && Recorded(g, w1.seen, r.seen, r.tracked)
    ensures w.seen <= r.seen <= w.seen + g.Keys
    ensures Prefix(w.tracked, r.tracked)
    ensures forall j :: 0 <= j < |props| ==> ChildSeen(g, props[j].1, r.seen)
    ensures forall j :: 0 <= j < |props| && KeyRead(g[x], props[j].0).Some? ==> KeyRead(g[x], props[j].0).value in r.tracked
    ensures Closed(g, w.seen, r.seen)
    ensures Recorded(g, w.seen, r.seen, r.tracked)
  {
    PrefixKeepsMembers(w1.tracked, r.tracked);
    PrefixKeepsMembers(w0.tracked, w1.tracked);
    assert Prefix(w.tracked, w0.tracked);
    PrefixTrans(w.tracked, w0.tracked, w1.tracked);
    PrefixTrans(w.tracked, w1.tracked, r.tracked);
    if KeyRead(g[x], props[0].0).Some? {
      assert w0.tracked[|w.tracked|] == KeyRead(g[x], props[0].0).value;
    }
    ClosedTrans(g, w.seen, w1.seen, r.seen);
    RecordedTrans(g, w.seen, w1.seen, r.seen, w1.tracked, r.tracked);
    PropsCovered(g, x, props, w0, w1, r);
  }

  lemma PropsCovered(g: Graph, x: ObjId, props: seq<(Key, Value)>, w0: Walk, w1: Walk, r: Walk)
    requires x in g && |props| > 0 && w1.seen <= r.seen
    requires KeyRead(g[x], props[0].0).Some? ==> KeyRead(g[x], props[0].0).value in w0.tracked
    requires ChildSeen(g, props[0].1, w1.seen)
    requires forall d :: d in w0.tracked ==> d in r.tracked
    requires forall j :: 0 <= j < |props[1..]| ==> ChildSeen(g, props[1..][j].1, r.seen)
    requires forall j :: 0 <= j < |props[1..]| && KeyRead(g[x], props[1..][j].0).Some? ==> KeyRead(g[x], props[1..][j].0).value in r.tracked
    ensures forall j :: 0 <= j < |props| ==> ChildSeen(g, props[j].1, r.seen)
    ensures forall j :: 0 <= j < |props| && KeyRead(g[x], props[j].0).Some? ==> KeyRead(g[x], props[j].0).value in r.tracked
  {
    forall j | 0 <= j < |props| ensures ChildSeen(g, props[j].1, r.seen) {
      if j > 0 {
        assert props[j] == props[1..][j - 1];
      }
    }
    forall j | 0 <= j < |props| && KeyRead(g[x], props[j].0).Some? ensures KeyRead(g[x], props[j].0).value in r.tracked {
      if j > 0 {
        assert props[j] == props[1..][j - 1];
      }
    }
  }

  /** The bound of `TraverseValue` from that of the walk over the object's
      properties: a new pair is the object's enumeration, one of its key
      reads, or a read of an object seen during the walk. */
  lemma ValueOnly(g: Graph, x: ObjId, w: Walk, w1: Walk, r: Walk)
    requires x in g && x !in w.seen && w1 == Walk(w.seen + {x}, w.tracked + EnumReads(g[x])) && w1.seen <= r.seen
    requires OnlyReads(g, w1.seen, r.seen, w1.tracked + PropReads(g[x], g[x].props), r.tracked)
    ensures OnlyReads(g, w.seen, r.seen, w.tracked, r.tracked)
  {
    forall d | d in r.tracked && d !in w.tracked
      ensures exists y :: y in r.seen && y !in w.seen && ReadOf(g, y, d)
    {
      if d in EnumReads(g[x]) {
        assert ReadOf(g, x, d);
      } else if d in PropReads(g[x], g[x].props) {
        PropReadsMembers(g[x], g[x].props, d);
        assert ReadOf(g, x, d);
      } else {
        var y :| y in r.seen && y !in w1.seen && ReadOf(g, y, d);
        assert y !in w.seen;
      }
    }
  }

  /** The bound of `TraverseProps` from those of its first step and of the
      rest of the walk. */
  lemma PropsOnly(g: Graph, x: ObjId, props: seq<(Key, Value)>, w: Walk, w0: Walk, w1: Walk, r: Walk)
    requires x in g && |props| > 0 && w0 == w.(tracked := w.tracked + KeyReads(g[x], props[0].0))
    requires w0.seen <= w1.seen <= r.seen
    requires OnlyReads(g, w0.seen, w1.seen, w0.tracked, w1.tracked)
    requires OnlyReads(g, w1.seen, r.seen, w1.tracked + PropReads(g[x], props[1..]), r.tracked)
    ensures OnlyReads(g, w.seen, r.seen, w.tracked + PropReads(g[x], props), r.tracked)
  {
    var all := w.tracked + PropReads(g[x], props);
    assert PropReads(g[x], props) == KeyReads(g[x], props[0].0) + PropReads(g[x], props[1..]);
    forall d | d in r.tracked && d !in all
      ensures exists y :: y in r.seen && y !in w.seen && ReadOf(g, y, d)
    {
      if d in w1.tracked {
        var y :| y in w1.seen && y !in w0.seen && ReadOf(g, y, d);
      } else {
        var y :| y in r.seen && y !in w1.seen && ReadOf(g, y, d);
      }
    }
  }

  /** Everything in a prefix is in the extended sequence. */
  lemma PrefixKeepsMembers(mid: seq<Dep>, last: seq<Dep>)
    requires Prefix(mid, last)
    ensures forall d :: d in mid ==> d in last
  {
    forall d | d in mid ensures d in last {
      var i :| 0 <= i < |mid| && mid[i] == d;
      assert last[i] == d;
    }
  }
}

module WatchJob {
  import opened Wrappers
  import opened Types
  import opened Cleanup
  import opened Effect
  import opened EffectProperties
  import opened Reactive
  import opened Watch

  // --------------------------------------------------------- traverse entry

  /** `traverse(source)` with a fresh `seen` set. */
  function Traverse(g: Graph, root: Value): (r: Walk)
    ensures r.seen <= g.Keys
    ensures TrapKeysOnly(r.tracked)
    ensures OnlyReads(g, {}, r.seen, [], r.tracked)
    ensures ChildSeen(g, root, r.seen)
    ensures Closed(g, {}, r.seen)
    ensures Recorded(g, {}, r.seen, r.tracked)
  {
    TraverseValue(g, root, Walk({}, []))
  }

  /** `y` is the value of some enumerable property of `x`. */
  predicate ChildOf(g: Graph, x: ObjId, y: ObjId) {
    x in g && y in g && exists j :: 0 <= j < |g[x].props| && g[x].props[j].1 == Ref(y)
  }

  /** A chain of child links from `path[0]`. */
  predicate IsPath(g: Graph, path: seq<ObjId>) {
    forall i :: 0 <= i < |path| - 1 ==> ChildOf(g, path[i], path[i + 1])
  }

  /** Everything reachable from the root is seen, hence enumerated and read,
      however the graph cycles. */
  lemma {:induction false} TraverseReachesAll(g: Graph, root: ObjId, path: seq<ObjId>)
    requires root in g && |path| > 0 && path[0] == root && IsPath(g, path)
    ensures var r := Traverse(g, Ref(root));
      && path[|path| - 1] in r.seen
      && (g[path[|path| - 1]].kind.ProxyOf? ==>
            (g[path[|path| - 1]].kind.target, EnumerationKey(g[path[|path| - 1]].isArray)) in r.tracked)
    decreases |path|
  {
    var r := Traverse(g, Ref(root));
    if |path| > 1 {
      var prefix := path[..|path| - 1];
      assert IsPath(g, prefix) by {
        forall i | 0 <= i < |prefix| - 1 ensures ChildOf(g, prefix[i], prefix[i + 1]) {
          assert prefix[i] == path[i] && prefix[i + 1] == path[i + 1];
        }
      }
      TraverseReachesAll(g, root, prefix);
      var x := path[|path| - 2];
      var y := path[|path| - 1];
      assert ChildOf(g, x, y);
      var j :| 0 <= j < |g[x].props| && g[x].props[j].1 == Ref(y);
      assert ChildSeen(g, g[x].props[j].1, r.seen);
    }
  }

  /** Walking `reactive({raw: 1, size: 1, a: 1})` tracks the enumeration
      and `a`, but neither `raw` nor `size`: a later `SET` of either does not
      reach the watch. */
  lemma TraverseFollowsTrapAsWritten()
    ensures var g := map[1 := Node(false, ProxyOf(0, false), [(RawKey, Num(1)), (SizeKey, Num(1)), (Named("a"), Num(1))])];
      var r := Traverse(g, Ref(1));
      && (0, IterateKey) in r.tracked && (0, Named("a")) in r.tracked
      && (0, RawKey) !in r.tracked && (0, SizeKey) !in r.tracked
  {
    var n := Node(false, ProxyOf(0, false), [(RawKey, Num(1)), (SizeKey, Num(1)), (Named("a"), Num(1))]);
    assert KeyRead(n, n.props[2].0) == Some((0, Named("a")));
  }

  // ------------------------------------------------------------- the getter

  /** The source of a watch: a getter function (its reads) or an object. */
  datatype Source = GetterFn(body: seq<Step>) | SourceObject(root: ObjId)

  function ReadSteps(ds: seq<Dep>): (r: seq<Step>)
    ensures |r| == |ds|
    ensures forall i :: 0 <= i < |ds| ==> r[i] == Read(ds[i].0, ds[i].1)
  {
    if |ds| == 0 then [] else [Read(ds[0].0, ds[0].1)] + ReadSteps(ds[1..])
  }

  /** The reads of `{...source}`: enumerate the root, then read each key. */
  function SpreadReads(g: Graph, root: ObjId): (r: seq<Dep>)
    ensures forall d :: d in r <==> ReadOf(g, root, d)
  {
    if root !in g then []
    else
      NodeReadsMembers(g, root);
      EnumReads(g[root]) + PropReads(g[root], g[root].props)
  }

  lemma NodeReadsMembers(g: Graph, x: ObjId)
    requires x in g
    ensures forall d :: d in EnumReads(g[x]) + PropReads(g[x], g[x].props) <==> ReadOf(g, x, d)
  {
    forall d ensures d in PropReads(g[x], g[x].props) <==>
      exists j :: 0 <= j < |g[x].props| && KeyRead(g[x], g[x].props[j].0) == Some(d)
    {
      PropReadsMembers(g[x], g[x].props, d);
    }
  }

  /** The effect's getter: a function source is used as it is; an object
      source is traversed and then shallow-copied. */
  function GetterBody(g: Graph, src: Source): (body: seq<Step>)
    ensures src.GetterFn? ==> body == src.body
    ensures src.SourceObject? ==> Flat(body)
    ensures src.SourceObject? ==> forall d :: d in Traverse(g, Ref(src.root)).tracked ==> d in DirectReads(body)
    ensures src.SourceObject? ==> forall d :: d in DirectReads(body) ==>
      d in Traverse(g, Ref(src.root)).tracked || d in SpreadReads(g, src.root)
  {
    match src
    case GetterFn(b) => b
    case SourceObject(root) =>
      var ds := Traverse(g, Ref(root)).tracked + SpreadReads(g, root);
      var body := ReadSteps(ds);
      ReadStepsReads(ds);
      body
  }

  lemma {:induction false} ReadStepsReads(ds: seq<Dep>)
    ensures Flat(ReadSteps(ds))
    ensures DirectReads(ReadSteps(ds)) == ds
    decreases |ds|
  {
    if |ds| > 0 {
      ReadStepsReads(ds[1..]);
      assert ReadSteps(ds)[1..] == ReadSteps(ds[1..]);
    }
  }

  // ---------------------------------------------------------------- the job

  /** What the watcher does, in order. */
  datatype Event = GetterRun(value: Value) | CleanupCalled(id: nat) | CallbackCalled(newValue: Value, oldValue: Value)

  /** The closure state of one watch: its effect, `oldValue`, the registered
      invalidation callback, what it has done, and how many jobs wait in the
      microtask queue. */
  datatype Watcher = Watcher(effect: EffectId, oldValue: Value, cleanup: Option<nat>, log: seq<Event>, queued: nat)

  /** `job()`: re-run the effect for `newValue`, call the registered cleanup
      if any, call `cb(newValue, oldValue, onInvalidate)` (during which the
      callback may register `registered`), then `oldValue = newValue`. */
  function Job(s: State, w: Watcher, getter: seq<Step>, newValue: Value, registered: Option<nat>): (r: (Watcher, State))
    ensures r.0.oldValue == newValue
    ensures r.0.effect == w.effect && r.0.queued == w.queued
    ensures |r.0.log| == |w.log| + (if w.cleanup.Some? then 3 else 2) && r.0.log[..|w.log|] == w.log
    ensures r.0.log[|w.log|] == GetterRun(newValue)
    ensures w.cleanup.Some? ==> r.0.log[|w.log| + 1] == CleanupCalled(w.cleanup.value)
    ensures r.0.log[|r.0.log| - 1] == CallbackCalled(newValue, w.oldValue)
    ensures r.0.cleanup == (if registered.Some? then registered else w.cleanup)
    ensures r.1.stack == s.stack && r.1.shouldTrack == s.shouldTrack
    ensures Consistent(s) && s.shouldTrack && Flat(getter) ==>
      forall t: ObjId, k: Key :: w.effect in Subscribers(r.1.store, t, k) <==> (t, k) in DirectReads(getter)
  {
    var s1 := RunEffect(s, w.effect, getter);
    RunRecordsExactlyWhen(s, w.effect, getter);
    var cleanupCalls := if w.cleanup.Some? then [CleanupCalled(w.cleanup.value)] else [];
    var log := w.log + [GetterRun(newValue)] + cleanupCalls + [CallbackCalled(newValue, w.oldValue)];
    (w.(oldValue := newValue, cleanup := if registered.Some? then registered else w.cleanup, log := log), s1)
  }

  /** `options.flush`. */
  datatype Flush = Pre | Post | Sync

  /** The watch's scheduler: with `flush: 'post'` the job is queued as a
      microtask; otherwise it runs at once. */
  function OnTrigger(s: State, w: Watcher, flush: Option<Flush>, getter: seq<Step>, newValue: Value, registered: Option<nat>)
    : (r: (Watcher, State))
    ensures flush == Some(Post) ==> r.0 == w.(queued := w.queued + 1) && r.1 == s
    ensures flush != Some(Post) ==> r == Job(s, w, getter, newValue, registered)
  {
    if flush == Some(Post) then (w.(queued := w.queued + 1), s)
    else Job(s, w, getter, newValue, registered)
  }

  /** The microtask tick: one queued job runs. */
  function RunQueued(s: State, w: Watcher, getter: seq<Step>, newValue: Value, registered: Option<nat>): (r: (Watcher, State))
    requires w.queued > 0
    ensures r.0.queued == w.queued - 1
    ensures |r.0.log| > |w.log|
    ensures r.0.log[|r.0.log| - 1] == CallbackCalled(newValue, w.oldValue)
  {
    Job(s, w.(queued := w.queued - 1), getter, newValue, registered)
  }

  /** The options `watch` passes to `effect`. */
  function WatchOptions(id: nat): Options {
    Options(true, Some(WatchScheduler(id)))
  }

  /** `watch(source, cb, {immediate})`: a lazy effect; with `immediate` the job
      runs at once with `oldValue` undefined, otherwise the effect runs once to
      fill `oldValue` and the callback is not called. */
  function Setup(s: State, reg: Registry, e: EffectId, id: nat, immediate: bool, getter: seq<Step>, initial: Value, registered: Option<nat>)
    : (r: (Watcher, State, Registry))
    requires e !in reg && e !in s.deps
    ensures r.2 == reg[e := WatchOptions(id)]
    ensures r.0.effect == e && r.0.oldValue == initial && r.0.queued == 0
    ensures immediate ==> r.0.log == [GetterRun(initial), CallbackCalled(initial, Undefined)] && r.0.cleanup == registered
    ensures !immediate ==> r.0.log == [GetterRun(initial)] && r.0.cleanup.None?
    ensures Consistent(s) && s.shouldTrack && Flat(getter) ==>
      forall t: ObjId, k: Key :: e in Subscribers(r.1.store, t, k) <==> (t, k) in DirectReads(getter)
  {
    var (s1, reg1) := CreateEffect(s, reg, e, WatchOptions(id), getter);
    var w0 := Watcher(e, Undefined, None, [], 0);
    if immediate then
      var (w1, s2) := Job(s1, w0, getter, initial, registered);
      (w1, s2, reg1)
    else
      RunRecordsExactlyWhen(s1, e, getter);
      (w0.(oldValue := initial, log := [GetterRun(initial)]), RunEffect(s1, e, getter), reg1)
  }

  /** `stop()`: `cleanupDeps` on the watch's effect. */
  function Stop(s: State, w: Watcher): (r: State)
    ensures DepsOf(r, w.effect) == []
    ensures Consistent(s) ==> Detached(r.store, w.effect)
  {
    CleanupDeps(s, w.effect)
  }

  // ------------------------------------------------------------- properties

  /** Consecutive jobs chain: the second callback's `oldValue` is the first
      one's `newValue`, and a cleanup registered during the first callback is
      called before the second callback. */
  lemma JobsChain(s: State, w: Watcher, getter: seq<Step>, v1: Value, v2: Value, c1: nat, reg2: Option<nat>)
    ensures var (w1, s1) := Job(s, w, getter, v1, Some(c1));
      var (w2, _) := Job(s1, w1, getter, v2, reg2);
      && w2.log[|w2.log| - 1] == CallbackCalled(v2, v1)
      && w2.log[|w1.log| + 1] == CleanupCalled(c1)
  {
  }

  /** The cleanup is kept after it is called: without a new registration, the
      same cleanup runs again before the next callback. */
  lemma CleanupIsCalledAgain(s: State, w: Watcher, getter: seq<Step>, v1: Value, v2: Value)
    requires w.cleanup.Some?
    ensures var (w1, s1) := Job(s, w, getter, v1, None);
      var (w2, _) := Job(s1, w1, getter, v2, None);
      w1.log[|w.log| + 1] == CleanupCalled(w.cleanup.value) && w2.log[|w1.log| + 1] == CleanupCalled(w.cleanup.value)
  {
  }

  /** `'pre'`, `'sync'` and no flush option behave alike: the job runs inline. */
  lemma PreAndSyncAgree(s: State, w: Watcher, getter: seq<Step>, v: Value, registered: Option<nat>)
    ensures OnTrigger(s, w, Some(Pre), getter, v, registered) == OnTrigger(s, w, Some(Sync), getter, v, registered)
    ensures OnTrigger(s, w, None, getter, v, registered) == OnTrigger(s, w, Some(Sync), getter, v, registered)
  {
  }

  /** `'post'`: nothing is called at trigger time; the tick then does what an
      inline job would have done. */
  lemma PostDefersTheJob(s: State, w: Watcher, getter: seq<Step>, v: Value, registered: Option<nat>)
    ensures var (w1, s1) := OnTrigger(s, w, Some(Post), getter, v, registered);
      && w1.log == w.log && s1 == s
      && RunQueued(s1, w1, getter, v, registered) == OnTrigger(s, w, Some(Sync), getter, v, registered)
  {
  }

  /** After `stop`, no trigger on any target selects the watch's effect. */
  lemma StopEndsNotifications(s: State, w: Watcher, t: ObjId, k: Key, change: ChangeType, newVal: Value, isArray: bool)
    requires Consistent(s)
    ensures w.effect !in Select(Stop(s, w), t, k, change, newVal, isArray)
  {
    var r := Stop(s, w);
    if t in r.store {
      forall k' | k' in r.store[t] ensures w.effect !in r.store[t][k'] {
        assert w.effect !in Subscribers(r.store, t, k');
      }
    }
  }

  /** A race the code does not guard against: a `'post'` job still queued when `stop` is called runs
      later and subscribes the effect again. */
  lemma QueuedJobOutlivesStop(s: State, w: Watcher, getter: seq<Step>, v: Value, t: ObjId, k: Key)
    requires Consistent(s) && s.shouldTrack && getter == [Read(t, k)]
    ensures var (w1, s1) := OnTrigger(s, w, Some(Post), getter, v, None);
      var s2 := Stop(s1, w1);
      && w.effect !in Subscribers(s2.store, t, k)
      && w.effect in Subscribers(RunQueued(s2, w1, getter, v, None).1.store, t, k)
  {
    assert DirectReads(getter) == [(t, k)];
  }
}

=== FILE: wrappers.dfy ===
/** Failure-compatible wrappers used across the model: an optional value and a
    result that is either a value or a thrown host error. */
module Wrappers {

  datatype Option<+T> = None | Some(value: T)

  datatype Result<+R, +E> = Success(value: R) | Failure(error: E) {

    predicate IsFailure() {
      Failure?
    }

    function PropagateFailure<U>(): Result<U, E>
      requires Failure?
    {
      Failure(error)
    }

    function Extract(): R
      requires Success?
    {
      value
    }
  }
}
